=== FILE: README.md ===
# Chunk verification and in-order reassembly

A Dafny model of the chunker in `chunker/chunker.go`. The chunker holds the expected digest of every fixed-size piece of a file. It accepts pieces in any order and checks each piece against the digest table. It stores each accepted piece in a backing file at `index * chunkSize`. It forwards the file to an output sink strictly in order: the piece at the flush cursor goes out first, then the whole run of already-stored pieces behind it, in one batched write. It signals completion once, when every piece has been applied. A streaming front end (`Write` / `Flush`) cuts an incoming byte stream into chunk-sized pieces and recognises the short final piece.

The model is a functional state machine:

- the `Chunker` record holds the digest table with the applied flags, the bitfield, the counters, the cursor, the backing file as a byte sequence, the log of sink writes, the stream buffer, and the number of completion signals sent;
- `Apply`, `Write` and `Flush` are pure functions from a state to a new state, a byte count and an optional error;
- the hash function is a parameter `h: Bytes -> Digest`.

The proofs rest on two invariants.

- `Consistency.Consistent` is structural and holds for any hash function:
  - the bitfield mirrors the flags;
  - `chunksDone` counts the applied flags;
  - the cursor is the least unapplied index;
  - a completion signal has been sent exactly when a non-empty table is fully applied.
- `Output.Faithful` relates the state to the original content. It holds under the hypothesis `Authentic`: only the true piece i has digest i.
  - The backing file agrees with the content on every applied piece.
  - The sink has received exactly the file up to the cursor.
  - `bytesLeft` is what the unapplied pieces still owe.

The end-to-end theorems are:

- `Reassembly.Reassemble`: every piece applied once, in any order;
- `Delivery.StreamDelivers`: the whole file written through `Write` and then `Flush`.

The code is modelled as written, including where it departs from what a reader might expect.

- A duplicate submission is refused with an error and zero bytes. It is not a silent no-op: the lookup fails on a set bit, and `Apply` turns every lookup failure into an error. The later "already written, no op" test is never reached.
- When two entries share a digest, lookup stops at the first one, so the later piece can never be applied.
- A final piece of exactly `chunkSize` bytes stays buffered until `Flush`.
- The whole-file branch of `Write` applies the last argument rather than the buffer, and does not clear the buffer. This is reported under Findings.

## Model

| member | source | states |
|---|---|---|
| Chunker.NewChunker | chunker/chunker.go:40-69 | A negative file size fails, as the truncation does. Otherwise the new state has one unapplied chunk per digest, in order, a clear bitfield, zero counters, the cursor at piece 0, a zero-filled backing file of `fileSize` bytes, nothing sent, an empty buffer and `fileSize` bytes owed. |
| Chunker.FindChunk | chunker/chunker.go:132-142 | "Not found" holds exactly when no entry has the digest. Otherwise the result is the first matching index, and it is "already applied" exactly when that index's bit is set: the lookup does not look past a set bit. |
| Chunker.Apply | chunker/chunker.go:147-209 | Empty input succeeds with 0 bytes and changes nothing. Input is refused exactly when it is non-empty and the lookup does not find an unapplied entry. A refusal changes nothing and reports 0 bytes with the "unknown chunk, size, chunk size" error. An accepted piece reports its length, raises `chunksDone` by one and lowers `bytesLeft` by its length. |
| Chunker.WriteLoop | chunker/chunker.go:97-105 | The loop drops a whole number of chunks from the front of the buffer, and never all of a non-empty buffer. When it ends without error, either nothing is owed or at most a chunk is left. When it fails, more than a chunk is left and the error is the chunk-sized refusal. `chunksDone` rises by the number of chunks dropped and `bytesLeft` falls by their bytes. |
| Chunker.LoopAppliesPrefixes | chunker/chunker.go:97-105 | The bytes the loop drops are exactly the chunk-sized prefixes `buf[:chunkSize]` of the successive buffers: applying those prefixes one after another, in order, accepts every one of them and reaches the loop's final state. |
| Chunker.PrefixRunSlices | chunker/chunker.go:97-104 | Applying the chunk-sized prefixes one after another gives the same state and error as `ApplyAll` on the list of chunk-sized slices of the buffer. |
| Chunker.WriteLoopSlices | chunker/chunker.go:97-105 | `ApplyAll` on the chunk-sized slices the loop dropped, in order, raises no error and reaches the loop's final state. |
| Chunker.LoopRefuses | chunker/chunker.go:97-103 | When the loop stops on an error, that error is what `Apply` gives, in the state the loop reached, for the next chunk-sized prefix of what is left of the buffer: the refused chunk is the one after those dropped. |
| Chunker.ApplyIgnoresBuf | chunker/chunker.go:147-165 | Whether `Apply` refuses an input does not depend on the stream buffer: it looks only at the input and the digest table. |
| Chunker.Commit | chunker/chunker.go:106-113 | Applying the whole buffer is refused exactly when the buffer is non-empty and its digest is not an unapplied entry. A refusal leaves the state unchanged, names the buffer's size, and is the refusal of the buffer itself when it is at most a chunk. Success clears the buffer, lowers `bytesLeft` by the buffer's length and completes one piece for a non-empty buffer. For a buffer of at most a chunk, `chunksDone` rises by the pieces the bytes taken from the buffer make: one, or none when nothing was taken. |
| Chunker.FinishWrite | chunker/chunker.go:106-114 | When the final-piece test (`bytes_left < chunkSize` and exactly that many bytes buffered) fails, nothing changes and the call succeeds. When it holds, the buffer is applied: it is refused exactly when it is non-empty and its digest is not an unapplied entry, a refusal leaves the state unchanged and is the refusal of the buffer, and success empties the buffer, leaves nothing owed and completes one piece for a non-empty buffer. The buffer is either left as it was or emptied, and `chunksDone` rises by the pieces the bytes taken from it make. Applied plus buffered bytes are unchanged. |
| Chunker.SliceAndApply | chunker/chunker.go:97-114 | Applied plus buffered bytes are unchanged. The buffer left is what remains of the buffer after whole chunks were cut from its front. On success neither the loop condition nor the final-piece test holds for what is left (unless it is empty), and a non-empty buffer is emptied only when nothing is owed. On error the refused chunk is still at the head of the buffer and the error is its refusal. Every piece cut is applied: `chunksDone` rises by the pieces the bytes taken from the buffer make, one per whole chunk plus one for a short final piece (`PieceCount`). It reports the byte count of the call on success and 0 on error. |
| Chunker.PieceCountAfterChunks | chunker/chunker.go:97-114 | Cutting whole chunks and then the rest: the pieces of all the bytes are the whole chunks plus the pieces of the bytes after them. |
| Chunker.Write | chunker/chunker.go:87-115 | Write reports `len(p)` on success and 0 on error. Bytes are conserved (applied plus buffered equals previously buffered plus `p`) exactly unless this is a successful whole-file write of a non-empty `p`. In the whole-file case the call is refused exactly when `p` is non-empty and its digest is not an unapplied entry, and the buffer keeps `p` either way; a refusal changes nothing but the buffer and names `len(p)`; a successful non-empty whole-file write applies `p` as one piece, lowering `bytesLeft` by `len(p)`. Otherwise the buffer left is the new bytes after whole chunks were cut from the front; on success the writer has nothing more to do on it, on error the refused chunk heads the buffer, and `chunksDone` rises by the pieces the bytes taken from the buffer make. |
| Chunker.WriteFixed | chunker/chunker.go:87-115 | The corrected writer reports `len(p)` on success and conserves bytes on every call. In the whole-file case it applies the buffered file: it is refused exactly when the file is non-empty and its digest is not an unapplied entry, a refusal changes nothing but the buffer and names the file's size, and success clears the buffer and completes one piece for a non-empty file. Otherwise it behaves as `Write` does. |
| Chunker.WriteFixedPieces | chunker/chunker.go:87-115 | Every piece the corrected writer takes from the buffer is applied, the whole-file case included: `chunksDone` rises by the pieces those bytes make. |
| Chunker.Flush | chunker/chunker.go:116-123 | Flush is refused exactly when the buffer is non-empty and its digest is not an unapplied entry. A refusal leaves the state unchanged and names the buffer's size. Success clears the buffer and lowers `bytesLeft` by its length; a non-empty buffer completes exactly one more piece. |
| Chunker.GetBitfield | chunker/chunker.go:143-145 | In a consistent state bit i is set exactly when piece i is applied. |
| Consistency.NewChunkerConsistent | chunker/chunker.go:40-69 | A new chunker satisfies the structural invariant. |
| Consistency.ApplyAccepted | chunker/chunker.go:166-174 | An accepted piece i is written into the backing file at offset i * chunkSize. Its flag and its bit are both set, and no other flag or bit changes. `chunksDone` rises by one and `bytesLeft` falls by the bytes written. The sink log only grows. |
| Consistency.ApplyConsistent | chunker/chunker.go:147-209 | Every Apply, accepted or refused, keeps the structural invariant: bitfield = flags, count = applied flags, cursor = least unapplied index, and at most one signal. |
| Consistency.RecordMarks | chunker/chunker.go:166-174 | Recording an unapplied piece at or after the cursor keeps bits and flags equal and the count exact. The cursor still points at an unapplied piece unless the piece is at the cursor. |
| Consistency.SignalConsistent | chunker/chunker.go:204-207 | After the signal step the completion count is one exactly when the table is fully applied. |
| Consistency.ApplyCursor | chunker/chunker.go:175-203 | Applying the piece at the cursor moves the cursor to the first unapplied index after it. Any other call leaves the cursor where it was. |
| Consistency.ApplySignalsOnce | chunker/chunker.go:204-207 | At most one completion value is ever sent. A value is sent in a call exactly when that call accepts a piece and the count reaches the table size. One value has been sent exactly when a non-empty table is fully applied. |
| Consistency.ApplyDuplicate | chunker/chunker.go:157-165 | A piece whose digest first matches an applied entry is refused with an error and 0 bytes, and the state is unchanged. |
| Consistency.ApplyShadowed | chunker/chunker.go:132-142 | When two entries share a digest, the later entry is never changed by any Apply. |
| Output.NewChunkerFaithful | chunker/chunker.go:40-69 | A new chunker is faithful to any content of the file's size. |
| Output.AcceptedIsPiece | chunker/chunker.go:151-161 | Under an authentic digest table, an accepted input is exactly the true piece i, starts inside the file and has the piece's length. |
| Output.EmitRun | chunker/chunker.go:175-203 | The ordered flush changes only the sink and the cursor. The cursor moves to the first unapplied index after the piece. The sink receives one write when no applied run follows, and otherwise exactly two: the piece, then pieces i+1 to j-1 read back from the file in one read. |
| Output.EmitPrefix | chunker/chunker.go:175-202 | If the sink held the file up to the piece and the piece is in place, then after the flush the sink holds the file up to the new cursor. |
| Output.RecordAgrees | chunker/chunker.go:166-170 | Storing the true piece i keeps the file agreeing with the content on applied pieces. It leaves the bytes before the piece unchanged and puts the piece at its offset. |
| Output.ApplyOutput | chunker/chunker.go:175-203 | When Apply accepts the piece at the cursor, the sink receives the piece and, if a run of applied pieces follows, that run in one more write. In every other case the sink receives nothing. |
| Output.ApplyFaithful | chunker/chunker.go:147-209 | Every Apply keeps the state faithful to the content. The backing file agrees on applied pieces, the sink holds the file up to the cursor, and `bytesLeft` equals the bytes of the unapplied pieces. |
| Output.AcceptedSinkPrefix | chunker/chunker.go:175-202 | After an accepted piece, with or without the flush, the sink is still the file up to the cursor. |
| Output.ApplyKeepsSinkPrefix | chunker/chunker.go:147-209 | For any hash function: if an input that would be accepted has its piece's length, Apply keeps the backing file at `fileSize` bytes and the sink equal to the file up to the cursor. |
| Output.OutputIsContentPrefix | chunker/chunker.go:175-202 | In a consistent, faithful state, the sink writes joined together equal the original content up to min(cursor * chunkSize, fileSize): every byte once, in order. |
| Streaming.ApplyAllKeeps | chunker/chunker.go:147-209 | Any sequence of Apply calls keeps both invariants. |
| Streaming.WriteKeeps | chunker/chunker.go:87-115 | Write keeps both invariants. |
| Streaming.WriteFixedKeeps | chunker/chunker.go:87-115 | The corrected writer keeps both invariants. |
| Streaming.SlicedKeeps | chunker/chunker.go:97-114 | The slicing part of the writer keeps both invariants. |
| Streaming.FinishKeeps | chunker/chunker.go:106-114 | The final-piece step keeps both invariants. |
| Streaming.WriteLoopConsistent | chunker/chunker.go:97-105 | The slicing loop keeps the structural invariant, whatever the hash function. |
| Streaming.WriteLoopFaithful | chunker/chunker.go:97-105 | The slicing loop keeps the state faithful to the content. |
| Streaming.FlushKeeps | chunker/chunker.go:116-123 | Flush keeps both invariants. |
| Streaming.FinalFullChunkWaits | chunker/chunker.go:97-115 | When the last piece owed is exactly one chunk and arrives alone, Write only buffers it and reports success. A later successful Flush completes it. |
| Reassembly.PieceAccepted | chunker/chunker.go:147-209 | Under a table of distinct digests of the content, the true piece i is accepted while it is unapplied. The state stays consistent and exactly piece i becomes applied. |
| Reassembly.ApplyAllPieces | chunker/chunker.go:147-209 | Submitting distinct unapplied pieces, in any order, raises no error. Afterwards exactly those pieces and the ones applied before are applied. |
| Reassembly.AllApplied | chunker/chunker.go:174-207 | When every piece of a consistent, faithful state is applied, the sink holds exactly the content, nothing is owed, the cursor is past the last piece and completion has been signalled once. |
| Reassembly.Reassemble | chunker/chunker.go:147-209 | On a new chunker, submitting every piece of the file exactly once, in any order, is accepted. The sink then holds exactly the file, nothing is owed, the cursor is past the last piece and completion has been signalled once. |
| Delivery.StepInOrder | chunker/chunker.go:97-105 | A loop round that reaches piece m of the content accepts it and leaves a state ready for piece m+1. |
| Delivery.LoopInOrder | chunker/chunker.go:97-105 | Fed the content from piece m on, with exactly pieces 0 to m-1 applied, the loop accepts every chunk it cuts. The applied pieces are then exactly 0 to m+j-1, where j is the number of chunks dropped. |
| Delivery.LoopFromFresh | chunker/chunker.go:97-105 | On a new chunker given a file longer than a chunk, the loop applies every piece but the last, without error, and stops at the start of the last piece. |
| Delivery.SliceLeavesLast | chunker/chunker.go:97-105 | After the loop, the buffer holds exactly the last piece, which is the only unapplied one and exactly what is owed. |
| Delivery.SliceFinishes | chunker/chunker.go:106-123 | From there the last piece is applied, by the same call when it is short and by Flush when it is a whole chunk, and neither call fails. |
| Delivery.SliceDelivers | chunker/chunker.go:97-123 | The slicing writer followed by Flush, on a new chunker whose buffer holds the whole file, applies every piece without error. |
| Delivery.WholeFileFixedAccepted | chunker/chunker.go:89-96 | The corrected whole-file branch applies a file of at most one chunk, which has exactly one piece, and clears the buffer. |
| Delivery.StreamDelivers | chunker/chunker.go:87-123 | On a new chunker, one Write of a file longer than a chunk, then Flush, succeeds. The sink then holds exactly the file, nothing is owed and completion has been signalled once. |
| Delivery.StreamFixedDelivers | chunker/chunker.go:87-123 | With the corrected writer the same holds for every non-empty file, including one that fits in a single chunk. |
| WholeFileWrite.WriteSplitWholeFileRefused | chunker/chunker.go:89-96 | A two-byte file with four-byte chunks, written as [1] and then [2], is refused on the second call with "unknown chunk, size 1, chunk size 4". |
| WholeFileWrite.PartialWriteBuffers | chunker/chunker.go:88-114 | On a fresh buffer, bytes that neither complete a file of at most one chunk nor exceed it are only buffered, by either writer: the call succeeds with their count and nothing else changes. |
| WholeFileWrite.WholeFileSplitRefused | chunker/chunker.go:89-96 | As written, whenever a file of at most one chunk is completed by a call that does not carry all of it, that call is refused. |
| WholeFileWrite.WholeFileFlushRefused | chunker/chunker.go:89-96 | As written, a file of at most one chunk written in one call is applied but stays buffered, so the Flush that follows is refused. |
| WholeFileWrite.WriteFixedSplitWholeFileAccepted | chunker/chunker.go:89-96 | With the buffer applied instead, the same two calls are accepted: the sink receives [1, 2], completion is signalled and the buffer is empty. |
| WholeFileWrite.WholeFileWriteFixedDelivers | chunker/chunker.go:89-96 | The corrected writer accepts a file of at most one chunk in whatever calls it arrives. The completing call clears the buffer, leaves nothing owed and sends exactly the file. |

## Left out

- The SHA-1 digest is the parameter `h`. The delivery and reassembly theorems assume that the table is the digest table of the content with pairwise distinct digests (`TableOf`) and that no other bytes share a piece's digest (`Authentic`). The structural invariant (`Consistency.Consistent`) and `Output.ApplyKeepsSinkPrefix` hold for any `h`.
- The bitset package is not part of this model. The bitfield is a `seq<bool>` and the invariant keeps it equal to the applied flags.
- Operating-system file operations are not modelled: temporary file creation, the I/O errors of `Truncate` (its zero fill and its refusal of a negative size are modelled in `NewChunker`), `Sync`, `Close`, `Remove`, and the I/O errors of `WriteAt` and `ReadAt`. The backing file is a byte sequence. A positioned read stops at end of file, which stands in for the EOF-clamped read.
- Errors from the output sink are not modelled. The sink is a log of writes that always succeed.
- The mutex is not modelled, because Apply is one atomic step here.
- The buffered `Done` channel is not modelled. A counter of values sent stands in for it.
- `Read` is an unimplemented stub, so it is not modelled.
- `DoneNotify`, `GetFile` and `Cleanup` only expose or release OS resources, so they are not modelled.
- The `fmt.Println` debug output is not modelled.
- Go's `int`, and the `int64` file offset, are unbounded integers here. Overflow needs files far beyond the model's concern.
- A file of size 0 never completes. It has no pieces to apply, so the chunker never sends on `Done`. The invariant records this: a signal is owed only for a non-empty table.
- Reassembly.Reassemble, Delivery.StreamDelivers: they assume `TableOf`, whose digests are pairwise distinct, so they say nothing about a file with two equal pieces, such as two all-zero chunks. The source cannot finish such a file: by `Consistency.ApplyShadowed` the later entry is never applied, so the count never reaches the table size and completion is never signalled.
- Delivery.StreamDelivers: it covers one `Write` of the whole file followed by `Flush`. A file split across several `Write` calls is covered by the invariants (`Streaming.WriteKeeps`) and, for a file of at most one chunk, by `WholeFileWrite.WholeFileWriteFixedDelivers`, but not by an end-to-end theorem.
- Chunker.NewChunker: it requires `chunkSize > 0`, which the source never checks. With a chunk size of 0 the loop at lines 97-105 never ends once a byte is buffered and bytes are owed, because `Apply` of the empty slice succeeds at lines 148-149 and nothing is dropped. A negative chunk size makes the slice at line 98 panic. Both inputs lie outside the model, and every member requires a positive chunk size through `WellFormed`.
- Chunker.GetBitfield: the source returns the chunker's live bitset, so a caller holding it sees bits set by later `Apply` calls and can change the chunker's bitfield through it. The model returns a copy of the bitfield at the time of the call; that aliasing is not modelled.
- Chunker.Apply: the "already written, no op" test after the lookup cannot be reached. It is kept in the function for fidelity, and no lemma depends on it.

## Findings

| source | as written | input that shows it | evidently intended | confidence | as-written member | corrected member |
|---|---|---|---|---|---|---|
| chunker/chunker.go:89-96 | When the whole file fits in one chunk, Write waits until `fileSize` bytes are buffered. It then applies only `p`, the bytes of the last call, not the buffer. | chunkSize 4, fileSize 2, table [digest of [1, 2]]. `Write([1])` buffers. `Write([2])` applies [2] alone and fails with "unknown chunk, size 1, chunk size 4". | Apply the whole buffer, as the final-piece branch does. | not executed | WholeFileWrite.WriteSplitWholeFileRefused | WholeFileWrite.WriteFixedSplitWholeFileAccepted |
| chunker/chunker.go:89-96 | The same branch does not clear the buffer after a successful apply. | The same table, written as `Write([1, 2])` and then `Flush()`. The write succeeds, but the buffer still holds [1, 2], so Flush submits it again and the duplicate is refused with an error. | Clear the buffer on success, as the final-piece branch does. | not executed | WholeFileWrite.WholeFileFlushRefused | Delivery.StreamFixedDelivers |

=== FILE: chunker.dfy ===
/** The chunk-verification and in-order reassembly engine.

    A `Chunker` holds the ordered table of expected chunk digests, the
    applied flags and the bitfield that mirrors them, the backing file, the
    flush cursor `nextWritePiece`, the counters, the buffer of the streaming
    writer, the log of every write made to the output sink and the number of
    values sent on the completion channel. Each operation is a pure function
    from one state to the next; `Apply` is one atomic step.
 */
module Chunker {
  import opened Store

  type Digest = string

  datatype Option<T> = None | Some(value: T)

  datatype Error =
    | NegativeFileSize(size: int)
    | UnknownChunk(size: int, chunkSize: int)

  datatype Result<T> = Ok(value: T) | Fail(error: Error)

  /** One expected piece: its digest and whether it has been applied. */
  datatype Chunk = Chunk(hash: Digest, applied: bool)

  datatype Chunker = Chunker(
    chunks: seq<Chunk>,
    bitfield: seq<bool>,
    chunksDone: int,
    chunksTotal: int,
    file: Bytes,
    chunkSize: int,
    fileSize: int,
    nextWritePiece: int,
    out: seq<Bytes>,     // every write made to the output sink, in order
    buf: Bytes,
    bytesLeft: int,
    doneSent: nat        // values sent on the completion channel
  )

  /** What a digest lookup finds. */
  datatype Lookup = Found(index: nat) | AlreadyApplied(index: nat) | NotFound

  /** The state after a call, the byte count it returns and its error, if any. */
  datatype Outcome = Outcome(state: Chunker, n: int, err: Option<Error>)

  /** The state after the slicing loop of `Write`, with the number of bytes it
      dropped from the front of the buffer. */
  datatype Progress = Progress(state: Chunker, consumed: nat, err: Option<Error>)

  /** The state after `Flush` and its error, if any. */
  datatype Flushed = Flushed(state: Chunker, err: Option<Error>)

  /** The shape every state built by `NewChunker` keeps. */
  predicate WellFormed(c: Chunker)
  {
    && c.chunkSize > 0
    && c.fileSize >= 0
    && c.nextWritePiece >= 0
    && |c.bitfield| == |c.chunks|
    && c.chunksTotal == |c.chunks|
  }

  function Hashes(chunks: seq<Chunk>): (hs: seq<Digest>)
    ensures |hs| == |chunks|
    ensures forall i :: 0 <= i < |chunks| ==> hs[i] == chunks[i].hash
  {
    seq(|chunks|, i requires 0 <= i < |chunks| => chunks[i].hash)
  }

  /** The file offset of piece i. */
  function Offset(i: nat, cs: nat): nat
  {
    i * cs
  }

  /** Number of applied chunks. */
  function CountApplied(chunks: seq<Chunk>): nat
  {
    if |chunks| == 0 then 0
    else CountApplied(chunks[..|chunks| - 1]) + (if chunks[|chunks| - 1].applied then 1 else 0)
  }

  predicate IsSet(bits: seq<bool>, i: int)
  {
    0 <= i < |bits| && bits[i]
  }

  /** The invariant every reachable state keeps, whatever the hash function:
      the bitfield mirrors the applied flags, `chunksDone` counts them, the
      cursor is the least unapplied index, and the completion channel holds
      one value exactly when a non-empty table is fully applied. */
  ghost predicate Consistent(c: Chunker)
  {
    && WellFormed(c)
    && (forall i :: 0 <= i < |c.chunks| ==> c.bitfield[i] == c.chunks[i].applied)
    && c.chunksDone == CountApplied(c.chunks)
    && c.nextWritePiece <= |c.chunks|
    && (forall k :: 0 <= k < c.nextWritePiece ==> c.chunks[k].applied)
    && (c.nextWritePiece < |c.chunks| ==> !c.chunks[c.nextWritePiece].applied)
    && c.doneSent == (if 0 < c.chunksTotal == c.chunksDone then 1 else 0)
  }

  /** A new chunker for the digests `hashList`: nothing applied, cursor at
      piece 0, a zero-filled backing file of `fileSize` bytes. A negative file
      size is refused, as truncating the backing file to it fails. */
  function NewChunker(hashList: seq<Digest>, chunkSize: int, fileSize: int): (r: Result<Chunker>)
    requires chunkSize > 0
    ensures r.Fail? <==> fileSize < 0
    ensures r.Ok? ==>
      var c := r.value;
      && WellFormed(c)
      && Hashes(c.chunks) == hashList
      && (forall i :: 0 <= i < |c.chunks| ==> !c.chunks[i].applied && !c.bitfield[i])
      && c.chunksDone == 0 && c.nextWritePiece == 0
      && c.chunkSize == chunkSize && c.fileSize == fileSize
      && c.file == Zeros(fileSize) && c.bytesLeft == fileSize
      && c.out == [] && c.buf == [] && c.doneSent == 0
  {
    if fileSize < 0 then Fail(NegativeFileSize(fileSize))
    else
      Ok(Chunker(
        chunks := seq(|hashList|, i requires 0 <= i < |hashList| => Chunk(hashList[i], false)),
        bitfield := seq(|hashList|, _ => false),
        chunksDone := 0,
        chunksTotal := |hashList|,
        file := Zeros(fileSize),
        chunkSize := chunkSize,
        fileSize := fileSize,
        nextWritePiece := 0,
        out := [],
        buf := [],
        bytesLeft := fileSize,
        doneSent := 0))
  }

  /** Digest lookup: the first chunk, left to right, whose digest is `hash`.
      If that chunk's bit is set the lookup fails as already applied without
      looking further; if no digest matches it fails as not found. */
  function FindChunk(c: Chunker, hash: Digest): (r: Lookup)
    ensures r.NotFound? <==> forall i :: 0 <= i < |c.chunks| ==> c.chunks[i].hash != hash
    ensures !r.NotFound? ==>
      && r.index < |c.chunks|
      && c.chunks[r.index].hash == hash
      && (forall i :: 0 <= i < r.index ==> c.chunks[i].hash != hash)
      && (r.AlreadyApplied? <==> IsSet(c.bitfield, r.index))
  {
    FindFrom(c, hash, 0)
  }

  function FindFrom(c: Chunker, hash: Digest, from: nat): (r: Lookup)
    requires from <= |c.chunks|
    decreases |c.chunks| - from
    ensures r.NotFound? <==> forall i :: from <= i < |c.chunks| ==> c.chunks[i].hash != hash
    ensures !r.NotFound? ==>
      && from <= r.index < |c.chunks|
      && c.chunks[r.index].hash == hash
      && (forall i :: from <= i < r.index ==> c.chunks[i].hash != hash)
      && (r.AlreadyApplied? <==> IsSet(c.bitfield, r.index))
  {
    if from == |c.chunks| then NotFound
    else if c.chunks[from].hash == hash then
      if IsSet(c.bitfield, from) then AlreadyApplied(from) else Found(from)
    else FindFrom(c, hash, from + 1)
  }

  /** The flush scan: the first index at or after `from` whose chunk is not
      applied, or the table length when there is none (or `from` itself when
      it already lies past the table). */
  function FirstUnapplied(chunks: seq<Chunk>, from: nat): (j: nat)
    decreases |chunks| - from
    ensures from <= j
    ensures j <= |chunks| || j == from
    ensures forall k :: from <= k < j ==> chunks[k].applied
    ensures j < |chunks| ==> !chunks[j].applied
  {
    if from < |chunks| && chunks[from].applied then FirstUnapplied(chunks, from + 1) else from
  }

  /** The accepting branch of `Apply` (chunker.go:166-174): store the bytes
      at the piece's offset, mark the piece applied in the table and the
      bitfield, update the counters. */
  function Record(c: Chunker, piece: nat, b: Bytes): (r: Chunker)
    requires WellFormed(c) && piece < |c.chunks|
  {
    c.(file := WriteAt(c.file, Offset(piece, c.chunkSize), b),
       chunks := c.chunks[piece := c.chunks[piece].(applied := true)],
       bitfield := c.bitfield[piece := true],
       bytesLeft := c.bytesLeft - |b|,
       chunksDone := c.chunksDone + 1)
  }

  /** The ordered flush, taken when the piece just recorded is at the cursor:
      write the piece to the sink, then the whole following run of applied
      pieces, read back from the file in one read, in one more write. */
  function Emit(c: Chunker, piece: nat, b: Bytes): (r: Chunker)
    requires WellFormed(c) && piece < |c.chunks| && c.nextWritePiece == piece
  {
    var next := c.nextWritePiece + 1;
    var j := FirstUnapplied(c.chunks, piece);
    var out :=
      if j > next then c.out + [b] + [ReadAt(c.file, c.chunkSize * next, (j - next) * c.chunkSize)]
      else c.out + [b];
    c.(out := out, nextWritePiece := j)
  }

  /** The completion signal: one value on the channel once every piece is done. */
  function Signal(c: Chunker): (r: Chunker)
  {
    if c.chunksDone == c.chunksTotal then c.(doneSent := c.doneSent + 1) else c
  }

  /** Verify `b` against the digest table and, if it is an unapplied piece,
      store it, flush what has become contiguous and signal completion. */
  function Apply(c: Chunker, h: Bytes -> Digest, b: Bytes): (r: Outcome)
    requires WellFormed(c)
    ensures WellFormed(r.state)
    ensures Hashes(r.state.chunks) == Hashes(c.chunks)
    ensures r.state.buf == c.buf
    ensures r.state.chunkSize == c.chunkSize && r.state.fileSize == c.fileSize
    ensures r.err.Some? <==> |b| > 0 && !FindChunk(c, h(b)).Found?
    ensures r.err.Some? ==> r.state == c && r.n == 0 && r.err.value == UnknownChunk(|b|, c.chunkSize)
    ensures |b| == 0 ==> r.state == c && r.n == 0 && r.err.None?
    ensures r.err.None? && |b| > 0 ==>
      r.n == |b| && r.state.chunksDone == c.chunksDone + 1 && r.state.bytesLeft == c.bytesLeft - |b|
  {
    if |b| == 0 then Outcome(c, 0, None)
    else
      var sum := h(b);
      match FindChunk(c, sum)
      case NotFound => Outcome(c, 0, Some(UnknownChunk(|b|, c.chunkSize)))
      case AlreadyApplied(_) => Outcome(c, 0, Some(UnknownChunk(|b|, c.chunkSize)))
      case Found(piece) =>
        if IsSet(c.bitfield, piece) then Outcome(c, 0, None)  // never taken: lookup already refused set bits
        else
          var c1 := Record(c, piece, b);
          var c2 := if c1.nextWritePiece == piece then Emit(c1, piece, b) else c1;
          Outcome(Signal(c2), |b|, None)
  }

  /** `k` bytes are a whole number of `cs`-byte chunks. */
  predicate WholeChunks(k: int, cs: int)
    requires cs > 0
    decreases k
  {
    k == 0 || (k >= cs && WholeChunks(k - cs, cs))
  }

  /** The number of whole `cs`-byte chunks in `k` bytes. */
  function ChunkCount(k: int, cs: int): nat
    requires cs > 0
    decreases k
  {
    if k < cs then 0 else 1 + ChunkCount(k - cs, cs)
  }

  /** The state after a sequence of `Apply` calls and the error that stopped it, if any. */
  datatype Run = Run(state: Chunker, err: Option<Error>)

  /** Apply each piece in turn, stopping at the first error. */
  function ApplyAll(c: Chunker, h: Bytes -> Digest, pieces: seq<Bytes>): (r: Run)
    requires WellFormed(c)
    ensures WellFormed(r.state)
    ensures Hashes(r.state.chunks) == Hashes(c.chunks)
    ensures r.state.chunkSize == c.chunkSize && r.state.fileSize == c.fileSize
    decreases |pieces|
  {
    if |pieces| == 0 then Run(c, None)
    else
      var a := Apply(c, h, pieces[0]);
      if a.err.Some? then Run(a.state, a.err) else ApplyAll(a.state, h, pieces[1..])
  }

  /** The successive chunk-sized slices of `buf` that fit in its first `n`
      bytes: `buf[..cs]`, then the next `cs` bytes, and so on. */
  function Slices(buf: Bytes, cs: int, n: int): (pieces: seq<Bytes>)
    requires cs > 0
    ensures forall j :: 0 <= j < |pieces| ==> |pieces[j]| == cs
    decreases n
  {
    if n < cs || |buf| < cs then [] else [buf[..cs]] + Slices(buf[cs..], cs, n - cs)
  }

  lemma SlicesCons(buf: Bytes, cs: int, m: nat)
    requires cs > 0 && |buf| >= cs
    ensures var pieces := Slices(buf, cs, cs + m);
      |pieces| > 0 && pieces[0] == buf[..cs] && pieces[1..] == Slices(buf[cs..], cs, m)
  {
    var pieces := Slices(buf, cs, cs + m);
    assert pieces == [buf[..cs]] + Slices(buf[cs..], cs, m);
  }

  /** The slicing loop of `Write`: while bytes are still owed and more than a
      chunk is buffered, apply the first chunk-sized prefix and drop it.
      The result counts the bytes dropped from the front of `buf`: a whole
      number of chunks, every one of them accepted, so `chunksDone` rises by
      their number and `bytesLeft` falls by their bytes. On error the chunk
      that failed is not counted and stays at the head of the buffer. */
  function WriteLoop(c: Chunker, h: Bytes -> Digest, buf: Bytes): (r: Progress)
    requires WellFormed(c)
    decreases |buf|
    ensures WellFormed(r.state)
    ensures Hashes(r.state.chunks) == Hashes(c.chunks)
    ensures r.state.chunkSize == c.chunkSize && r.state.fileSize == c.fileSize
    ensures r.consumed <= |buf| && WholeChunks(r.consumed, c.chunkSize)
    ensures r.err.None? ==> !(r.state.bytesLeft > 0 && |buf| - r.consumed > c.chunkSize)
    ensures r.err.Some? ==> |buf| - r.consumed > c.chunkSize && r.err.value == UnknownChunk(c.chunkSize, c.chunkSize)
    ensures r.state.chunksDone == c.chunksDone + ChunkCount(r.consumed, c.chunkSize)
    ensures r.state.bytesLeft == c.bytesLeft - r.consumed
    ensures |buf| > 0 ==> r.consumed < |buf|
  {
    if c.bytesLeft > 0 && |buf| > c.chunkSize then
      var a := Apply(c, h, buf[..c.chunkSize]);
      if a.err.Some? then Progress(a.state, 0, a.err)
      else
        var r := WriteLoop(a.state, h, buf[c.chunkSize..]);
        Progress(r.state, c.chunkSize + r.consumed, r.err)
    else Progress(c, 0, None)
  }

  /** The lookup does not look at the buffer. */
  lemma {:induction false} FindFromIgnoresBuf(c: Chunker, hash: Digest, from: nat, buf: Bytes)
    requires from <= |c.chunks|
    ensures FindFrom(c.(buf := buf), hash, from) == FindFrom(c, hash, from)
    decreases |c.chunks| - from
  {
    if from < |c.chunks| {
      FindFromIgnoresBuf(c, hash, from + 1, buf);
    }
  }

  lemma FindIgnoresBuf(c: Chunker, hash: Digest, buf: Bytes)
    ensures FindChunk(c.(buf := buf), hash) == FindChunk(c, hash)
  {
    FindFromIgnoresBuf(c, hash, 0, buf);
  }

  /** Neither does the error of `Apply`. */
  lemma ApplyIgnoresBuf(c: Chunker, h: Bytes -> Digest, b: Bytes, buf: Bytes)
    requires WellFormed(c)
    ensures Apply(c.(buf := buf), h, b).err == Apply(c, h, b).err
  {
    FindIgnoresBuf(c, h(b), buf);
  }


  /** One accepted round of the loop, then the rest of the loop. */
  lemma LoopUnfold(c: Chunker, h: Bytes -> Digest, buf: Bytes)
    requires WellFormed(c) && c.bytesLeft > 0 && |buf| > c.chunkSize
    requires Apply(c, h, buf[..c.chunkSize]).err.None?
    ensures var l, r := WriteLoop(c, h, buf), WriteLoop(Apply(c, h, buf[..c.chunkSize]).state, h, buf[c.chunkSize..]);
      && l.state == r.state && l.consumed == c.chunkSize + r.consumed && l.err == r.err
  {
    LoopUnfoldState(c, h, buf);
    LoopUnfoldConsumed(c, h, buf);
    LoopUnfoldErr(c, h, buf);
  }

  lemma LoopUnfoldState(c: Chunker, h: Bytes -> Digest, buf: Bytes)
    requires WellFormed(c) && c.bytesLeft > 0 && |buf| > c.chunkSize
    ensures var a := Apply(c, h, buf[..c.chunkSize]);
      a.err.None? ==> WriteLoop(c, h, buf).state == WriteLoop(a.state, h, buf[c.chunkSize..]).state
  {
  }

  lemma LoopUnfoldConsumed(c: Chunker, h: Bytes -> Digest, buf: Bytes)
    requires WellFormed(c) && c.bytesLeft > 0 && |buf| > c.chunkSize
    ensures var a := Apply(c, h, buf[..c.chunkSize]);
      a.err.None? ==> WriteLoop(c, h, buf).consumed == c.chunkSize + WriteLoop(a.state, h, buf[c.chunkSize..]).consumed
  {
  }

  lemma LoopUnfoldErr(c: Chunker, h: Bytes -> Digest, buf: Bytes)
    requires WellFormed(c) && c.bytesLeft > 0 && |buf| > c.chunkSize
    ensures var a := Apply(c, h, buf[..c.chunkSize]);
      a.err.None? ==> WriteLoop(c, h, buf).err == WriteLoop(a.state, h, buf[c.chunkSize..]).err
  {
  }

  /** `Apply` on the chunk-sized prefixes of `buf`, one after another,
      for as long as they fit in its first `n` bytes and are accepted. */
  function PrefixRun(c: Chunker, h: Bytes -> Digest, buf: Bytes, n: int): Run
    requires WellFormed(c)
    decreases n
  {
    if n < c.chunkSize || |buf| < c.chunkSize then Run(c, None)
    else
      var a := Apply(c, h, buf[..c.chunkSize]);
      if a.err.Some? then Run(a.state, a.err) else PrefixRun(a.state, h, buf[c.chunkSize..], n - c.chunkSize)
  }

  lemma PrefixRunStepState(c: Chunker, h: Bytes -> Digest, buf: Bytes, m: nat)
    requires WellFormed(c) && |buf| >= c.chunkSize
    ensures var a := Apply(c, h, buf[..c.chunkSize]);
      a.err.None? ==> PrefixRun(c, h, buf, c.chunkSize + m).state == PrefixRun(a.state, h, buf[c.chunkSize..], m).state
  {
  }

  lemma PrefixRunStepErr(c: Chunker, h: Bytes -> Digest, buf: Bytes, m: nat)
    requires WellFormed(c) && |buf| >= c.chunkSize
    ensures var a := Apply(c, h, buf[..c.chunkSize]);
      a.err.None? ==> PrefixRun(c, h, buf, c.chunkSize + m).err == PrefixRun(a.state, h, buf[c.chunkSize..], m).err
  {
  }

  lemma PrefixRunStepRefused(c: Chunker, h: Bytes -> Digest, buf: Bytes, m: nat)
    requires WellFormed(c) && |buf| >= c.chunkSize
    ensures var a, p := Apply(c, h, buf[..c.chunkSize]), PrefixRun(c, h, buf, c.chunkSize + m);
      a.err.Some? ==> p.state == a.state && p.err == a.err
  {
  }

  lemma PrefixRunStop(c: Chunker, h: Bytes -> Digest, buf: Bytes)
    requires WellFormed(c)
    ensures PrefixRun(c, h, buf, 0).state == c && PrefixRun(c, h, buf, 0).err == None
  {
  }

  /** Applying the prefixes one after another is `ApplyAll` on the slices. */
  lemma {:induction false} PrefixRunSlices(c: Chunker, h: Bytes -> Digest, buf: Bytes, n: int)
    requires WellFormed(c)
    ensures var p, q := PrefixRun(c, h, buf, n), ApplyAll(c, h, Slices(buf, c.chunkSize, n));
      p.state == q.state && p.err == q.err
    decreases n
  {
    var cs := c.chunkSize;
    if n >= cs && |buf| >= cs {
      var a := Apply(c, h, buf[..cs]);
      SlicesCons(buf, cs, n - cs);
      if a.err.None? {
        PrefixRunSlices(a.state, h, buf[cs..], n - cs);
        PrefixRunStepState(c, h, buf, n - cs);
        PrefixRunStepErr(c, h, buf, n - cs);
      } else {
        PrefixRunStepRefused(c, h, buf, n - cs);
      }
    } else {
      assert Slices(buf, cs, n) == [];
    }
  }


  /** The slicing loop of `Write` applies the chunk-sized prefixes of the
      buffer in order: the bytes it dropped are exactly the prefixes
      applied one after another, all accepted. When it stops on an error,
      the next prefix is the one refused (`LoopRefuses`). */
  lemma {:induction false} LoopAppliesPrefixes(c: Chunker, h: Bytes -> Digest, buf: Bytes)
    requires WellFormed(c)
    ensures var l := WriteLoop(c, h, buf);
      var p := PrefixRun(c, h, buf, l.consumed);
      p.state == l.state && p.err.None?
    decreases |buf|
  {
    var cs := c.chunkSize;
    if c.bytesLeft > 0 && |buf| > cs {
      var a := Apply(c, h, buf[..cs]);
      if a.err.None? {
        LoopAppliesPrefixes(a.state, h, buf[cs..]);
        var r := WriteLoop(a.state, h, buf[cs..]);
        LoopUnfold(c, h, buf);
        PrefixRunStepState(c, h, buf, r.consumed);
        PrefixRunStepErr(c, h, buf, r.consumed);
      } else {
        LoopUnfoldRefused(c, h, buf);
      }
    } else {
      LoopUnfoldStop(c, h, buf);
      PrefixRunStop(c, h, buf);
    }
  }

  /** The same, stated on `ApplyAll` and `Slices`: the chunk-sized slices
      the loop dropped from the front of the buffer, applied in order, are
      all accepted and lead to the loop's state. */
  lemma WriteLoopSlices(c: Chunker, h: Bytes -> Digest, buf: Bytes)
    requires WellFormed(c)
    ensures var l := WriteLoop(c, h, buf);
      var run := ApplyAll(c, h, Slices(buf, c.chunkSize, l.consumed));
      run.state == l.state && run.err.None?
  {
    LoopAppliesPrefixes(c, h, buf);
    PrefixRunSlices(c, h, buf, WriteLoop(c, h, buf).consumed);
  }

  lemma LoopUnfoldRefused(c: Chunker, h: Bytes -> Digest, buf: Bytes)
    requires WellFormed(c) && c.bytesLeft > 0 && |buf| > c.chunkSize
    ensures var a, l := Apply(c, h, buf[..c.chunkSize]), WriteLoop(c, h, buf);
      a.err.Some? ==> l.state == a.state && l.consumed == 0 && l.err == a.err
  {
  }

  lemma LoopUnfoldStop(c: Chunker, h: Bytes -> Digest, buf: Bytes)
    requires WellFormed(c) && !(c.bytesLeft > 0 && |buf| > c.chunkSize)
    ensures var l := WriteLoop(c, h, buf);
      l.state == c && l.consumed == 0 && l.err == None
  {
  }

  /** When the loop stops on an error, the chunk it was refused is the one
      at the head of what it leaves buffered: submitting it again gives the
      same error. */
  lemma {:induction false} LoopRefuses(c: Chunker, h: Bytes -> Digest, buf: Bytes)
    requires WellFormed(c)
    ensures var r := WriteLoop(c, h, buf);
      r.err.Some? ==> Apply(r.state, h, buf[r.consumed..][..c.chunkSize]).err == r.err
    decreases |buf|
  {
    var cs := c.chunkSize;
    if c.bytesLeft > 0 && |buf| > cs {
      var a := Apply(c, h, buf[..cs]);
      var l := WriteLoop(c, h, buf);
      if a.err.None? {
        LoopRefuses(a.state, h, buf[cs..]);
        var r := WriteLoop(a.state, h, buf[cs..]);
        LoopUnfold(c, h, buf);
        if l.err.Some? {
          assert buf[l.consumed..] == buf[cs..][r.consumed..];
        }
      } else {
        LoopUnfoldRefused(c, h, buf);
        assert buf[l.consumed..] == buf;
      }
    } else {
      LoopUnfoldStop(c, h, buf);
    }
  }

  /** The file fits in one chunk and, with `p`, is entirely buffered. */
  predicate WholeFileBuffered(c: Chunker, p: Bytes)
  {
    c.chunkSize >= c.fileSize && c.fileSize == |c.buf| + |p|
  }

  /** Every byte handed to the writer so far is either applied or still
      buffered: the bytes applied since `c` plus those buffered in `r` are
      those buffered in `c` plus `p`. */
  predicate Conserves(c: Chunker, p: Bytes, r: Chunker)
  {
    (c.bytesLeft - r.bytesLeft) + |r.buf| == |c.buf| + |p|
  }

  /** The final-piece test of the writer: fewer than a chunk's bytes are
      still owed and exactly that many are buffered. */
  predicate FinalPiece(c: Chunker)
  {
    c.bytesLeft < c.chunkSize && |c.buf| == c.bytesLeft
  }

  /** `rest` is what is left of `all` once whole chunks have been dropped
      from its front, or nothing at all. */
  predicate Remainder(all: Bytes, rest: Bytes, cs: int)
    requires cs > 0
  {
    && |rest| <= |all| && rest == all[|all| - |rest|..]
    && (rest != [] ==> WholeChunks(|all| - |rest|, cs))
  }

  /** The writer has nothing more to do on `c`: the slicing loop would not
      run, and a non-empty buffer does not pass the final-piece test. */
  predicate Settled(c: Chunker)
  {
    && !(c.bytesLeft > 0 && |c.buf| > c.chunkSize)
    && (c.buf != [] ==> !FinalPiece(c))
  }

  /** Error `e` is the refusal of the chunk at the head of the buffer, at
      most a chunk's bytes: it names their size, and `Apply` gives it again
      for them, so the lookup does not find them as an unapplied piece. */
  predicate Refused(c: Chunker, h: Bytes -> Digest, e: Error)
    requires WellFormed(c)
  {
    var k := Min(|c.buf|, c.chunkSize);
    && |c.buf| > 0
    && e == UnknownChunk(k, c.chunkSize)
    && Apply(c, h, c.buf[..k]).err == Some(e)
  }

  /** The number of pieces `k` bytes make when cut into `cs`-byte chunks,
      a short last piece included. */
  function PieceCount(k: int, cs: int): nat
    requires cs > 0
    decreases k
  {
    if k <= 0 then 0 else 1 + PieceCount(k - cs, cs)
  }

  /** Whole chunks followed by any further bytes make as many pieces as
      there are chunks plus the pieces of the bytes after them. */
  lemma {:induction false} PieceCountAfterChunks(k: int, x: int, total: int, cs: int)
    requires cs > 0 && WholeChunks(k, cs) && x >= 0 && total == k + x
    ensures PieceCount(total, cs) == ChunkCount(k, cs) + PieceCount(x, cs)
    decreases k
  {
    if k > 0 {
      PieceCountAfterChunks(k - cs, x, total - cs, cs);
    }
  }

  /** At most a chunk's bytes make one piece, or none when there are none. */
  lemma PieceCountOne(b: int, cs: int)
    requires cs > 0
    ensures 0 <= b <= cs ==> PieceCount(b, cs) == (if b > 0 then 1 else 0)
  {
    if 0 < b <= cs {
      assert PieceCount(b - cs, cs) == 0;
    }
  }

  /** The body of `SliceAndApply`, kept apart from its contract so that the
      lemmas below can prove that contract one part at a time: run the
      slicing loop on the buffer, cut the buffer after the chunks it
      dropped, and on success take the final-piece step. */
  function SliceCore(c0: Chunker, h: Bytes -> Digest, n: int): Outcome
    requires WellFormed(c0)
  {
    var l := WriteLoop(c0, h, c0.buf);
    var s := l.state.(buf := c0.buf[l.consumed..]);
    if l.err.Some? then Outcome(s, 0, l.err) else FinishWrite(s, h, n)
  }

  lemma SliceCoreFrame(c0: Chunker, h: Bytes -> Digest, n: int)
    requires WellFormed(c0)
    ensures var r := SliceCore(c0, h, n);
      && WellFormed(r.state)
      && Hashes(r.state.chunks) == Hashes(c0.chunks)
      && r.state.chunkSize == c0.chunkSize && r.state.fileSize == c0.fileSize
      && r.n == (if r.err.Some? then 0 else n)
      && Conserves(c0, [], r.state)
  {
  }

  /** Dropping whole chunks from the front of `all` leaves a remainder, and
      so does dropping everything. */
  lemma CutRemainder(all: Bytes, k: int, cs: int)
    requires cs > 0 && 0 <= k <= |all| && WholeChunks(k, cs)
    ensures Remainder(all, all[k..], cs) && Remainder(all, [], cs)
  {
    assert all[k..] == all[|all| - |all[k..]|..];
    assert all[|all|..] == [];
  }

  lemma SliceCoreRemainder(c0: Chunker, h: Bytes -> Digest, n: int)
    requires WellFormed(c0)
    ensures Remainder(c0.buf, SliceCore(c0, h, n).state.buf, c0.chunkSize)
  {
    var l := WriteLoop(c0, h, c0.buf);
    CutRemainder(c0.buf, l.consumed, c0.chunkSize);
  }

  lemma SliceCoreCleared(c0: Chunker, h: Bytes -> Digest, n: int)
    requires WellFormed(c0)
    ensures var r := SliceCore(c0, h, n);
      r.err.None? && c0.buf != [] && r.state.buf == [] ==> r.state.bytesLeft == 0
  {
  }

  lemma SliceCoreSettled(c0: Chunker, h: Bytes -> Digest, n: int)
    requires WellFormed(c0)
    ensures var r := SliceCore(c0, h, n);
      r.err.None? ==> Settled(r.state)
  {
  }

  lemma SliceCoreRefused(c0: Chunker, h: Bytes -> Digest, n: int)
    requires WellFormed(c0)
    ensures var r := SliceCore(c0, h, n);
      r.err.Some? ==> Refused(r.state, h, r.err.value)
  {
    LoopRefuses(c0, h, c0.buf);
    var l := WriteLoop(c0, h, c0.buf);
    var s := l.state.(buf := c0.buf[l.consumed..]);
    if l.err.Some? {
      ApplyIgnoresBuf(l.state, h, s.buf[..c0.chunkSize], s.buf);
    }
  }

  lemma SliceCorePieces(c0: Chunker, h: Bytes -> Digest, n: int)
    requires WellFormed(c0)
    ensures var r := SliceCore(c0, h, n);
      r.state.chunksDone == c0.chunksDone + PieceCount(|c0.buf| - |r.state.buf|, c0.chunkSize)
  {
    var r := SliceCore(c0, h, n);
    var l := WriteLoop(c0, h, c0.buf);
    var s := l.state.(buf := c0.buf[l.consumed..]);
    PieceCountOne(0, c0.chunkSize);
    PieceCountAfterChunks(l.consumed, |s.buf| - |r.state.buf|, |c0.buf| - |r.state.buf|, c0.chunkSize);
  }

  /** The common part of the streaming writer, on a state whose buffer
      already holds the new bytes: apply whole chunks, then the short final
      piece once exactly that many bytes are buffered. It reports `n` bytes
      written on success. Every piece cut is applied: the count of applied
      pieces rises by the pieces the bytes taken from the buffer make, each
      whole chunk and a short final piece. */
  function SliceAndApply(c0: Chunker, h: Bytes -> Digest, n: int): (r: Outcome)
    requires WellFormed(c0)
    ensures WellFormed(r.state)
    ensures Hashes(r.state.chunks) == Hashes(c0.chunks)
    ensures r.state.chunkSize == c0.chunkSize && r.state.fileSize == c0.fileSize
    ensures r.n == if r.err.Some? then 0 else n
    ensures Conserves(c0, [], r.state)
    ensures Remainder(c0.buf, r.state.buf, c0.chunkSize)
    ensures r.err.None? ==> Settled(r.state)
    ensures r.err.None? && c0.buf != [] && r.state.buf == [] ==> r.state.bytesLeft == 0
    ensures r.err.Some? ==> Refused(r.state, h, r.err.value)
    ensures r.state.chunksDone == c0.chunksDone + PieceCount(|c0.buf| - |r.state.buf|, c0.chunkSize)
  {
    SliceCoreFrame(c0, h, n);
    SliceCoreRemainder(c0, h, n);
    SliceCoreCleared(c0, h, n);
    SliceCoreSettled(c0, h, n);
    SliceCoreRefused(c0, h, n);
    SliceCorePieces(c0, h, n);
    SliceCore(c0, h, n)
  }

  /** Submit the whole buffer to `Apply` and clear it on success, reporting
      `n` bytes written; on error the state is left as it was. */
  function Commit(s: Chunker, h: Bytes -> Digest, n: int): (r: Outcome)
    requires WellFormed(s)
    ensures WellFormed(r.state)
    ensures Hashes(r.state.chunks) == Hashes(s.chunks)
    ensures r.state.chunkSize == s.chunkSize && r.state.fileSize == s.fileSize
    ensures r.err.Some? <==> |s.buf| > 0 && !FindChunk(s, h(s.buf)).Found?
    ensures r.err.Some? ==> r.state == s && r.n == 0 && r.err.value == UnknownChunk(|s.buf|, s.chunkSize)
    ensures r.err.Some? && |s.buf| <= s.chunkSize ==> Refused(r.state, h, r.err.value)
    ensures r.err.None? ==>
      && r.n == n && r.state.buf == [] && r.state.bytesLeft == s.bytesLeft - |s.buf|
      && r.state.chunksDone == s.chunksDone + (if |s.buf| > 0 then 1 else 0)
    ensures |s.buf| <= s.chunkSize ==>
      r.state.chunksDone == s.chunksDone + PieceCount(|s.buf| - |r.state.buf|, s.chunkSize)
  {
    PieceCountOne(|s.buf|, s.chunkSize);
    PieceCountOne(0, s.chunkSize);
    var a := Apply(s, h, s.buf);
    if a.err.Some? then
      assert s.buf[..|s.buf|] == s.buf;
      a
    else Outcome(a.state.(buf := []), n, None)
  }

  /** The last step of the streaming writer: once fewer than a chunk's bytes
      are owed and exactly that many are buffered, commit the buffer. It
      reports `n` bytes written on success. */
  function FinishWrite(s: Chunker, h: Bytes -> Digest, n: int): (r: Outcome)
    requires WellFormed(s)
    ensures WellFormed(r.state)
    ensures Hashes(r.state.chunks) == Hashes(s.chunks)
    ensures r.state.chunkSize == s.chunkSize && r.state.fileSize == s.fileSize
    ensures r.n == if r.err.Some? then 0 else n
    ensures Conserves(s, [], r.state)
    ensures r.state.buf == s.buf || r.state.buf == []
    ensures !FinalPiece(s) ==> r == Outcome(s, n, None)
    ensures FinalPiece(s) ==> (r.err.Some? <==> |s.buf| > 0 && !FindChunk(s, h(s.buf)).Found?)
    ensures r.err.Some? ==> r.state == s && Refused(s, h, r.err.value)
    ensures FinalPiece(s) && r.err.None? ==>
      && r.state.buf == [] && r.state.bytesLeft == 0
      && r.state.chunksDone == s.chunksDone + (if |s.buf| > 0 then 1 else 0)
    ensures r.state.chunksDone == s.chunksDone + PieceCount(|s.buf| - |r.state.buf|, s.chunkSize)
  {
    PieceCountOne(0, s.chunkSize);
    if FinalPiece(s) then Commit(s, h, n) else Outcome(s, n, None)
  }

  /** The streaming writer, as written: buffer `p`; when the whole file fits
      in one chunk and is now buffered, apply `p` alone and leave the buffer
      as it is; otherwise slice and apply. Bytes are conserved in every case
      but a successful whole-file write of a non-empty `p`: there `p` is
      applied and still buffered. */
  function Write(c: Chunker, h: Bytes -> Digest, p: Bytes): (r: Outcome)
    requires WellFormed(c)
    ensures WellFormed(r.state)
    ensures Hashes(r.state.chunks) == Hashes(c.chunks)
    ensures r.state.chunkSize == c.chunkSize && r.state.fileSize == c.fileSize
    ensures r.n == if r.err.Some? then 0 else |p|
    ensures Conserves(c, p, r.state) <==> !(WholeFileBuffered(c, p) && r.err.None? && |p| > 0)
    ensures WholeFileBuffered(c, p) ==>
      && (r.err.Some? <==> |p| > 0 && !FindChunk(c, h(p)).Found?)
      && r.state.buf == c.buf + p
    ensures WholeFileBuffered(c, p) && r.err.None? && |p| > 0 ==>
      r.state.bytesLeft == c.bytesLeft - |p| && r.state.chunksDone == c.chunksDone + 1
    ensures WholeFileBuffered(c, p) && r.err.Some? ==>
      r.state == c.(buf := c.buf + p) && r.err.value == UnknownChunk(|p|, c.chunkSize)
    ensures !WholeFileBuffered(c, p) ==>
      && Remainder(c.buf + p, r.state.buf, c.chunkSize)
      && (r.err.None? ==> Settled(r.state))
      && (r.err.Some? ==> Refused(r.state, h, r.err.value))
      && r.state.chunksDone == c.chunksDone + PieceCount(|c.buf + p| - |r.state.buf|, c.chunkSize)
  {
    var c0 := c.(buf := c.buf + p);
    if WholeFileBuffered(c, p) then
      var a := Apply(c0, h, p);
      if a.err.Some? then a else Outcome(a.state, |p|, None)
    else SliceAndApply(c0, h, |p|)
  }

  /** The streaming writer with the whole-file case committing the buffer,
      as the final-piece case does. Bytes are always conserved. */
  function WriteFixed(c: Chunker, h: Bytes -> Digest, p: Bytes): (r: Outcome)
    requires WellFormed(c)
    ensures WellFormed(r.state)
    ensures Hashes(r.state.chunks) == Hashes(c.chunks)
    ensures r.state.chunkSize == c.chunkSize && r.state.fileSize == c.fileSize
    ensures r.n == if r.err.Some? then 0 else |p|
    ensures Conserves(c, p, r.state)
    ensures Remainder(c.buf + p, r.state.buf, c.chunkSize)
    ensures r.err.None? ==> Settled(r.state)
    ensures r.err.Some? ==> Refused(r.state, h, r.err.value)
    ensures WholeFileBuffered(c, p) ==>
      && (r.err.Some? <==> |c.buf| + |p| > 0 && !FindChunk(c, h(c.buf + p)).Found?)
      && (r.err.None? ==> r.state.buf == [] && r.state.chunksDone == c.chunksDone + (if |c.buf| + |p| > 0 then 1 else 0))
      && (r.err.Some? ==> r.state == c.(buf := c.buf + p) && r.err.value == UnknownChunk(|c.buf| + |p|, c.chunkSize))
  {
    var c0 := c.(buf := c.buf + p);
    if WholeFileBuffered(c, p) then
      WholeFileCommits(c, h, p);
      Commit(c0, h, |p|)
    else SliceAndApply(c0, h, |p|)
  }

  /** The whole-file case of `WriteFixed`: committing the whole buffer
      leaves nothing, or on a refusal the whole file, at the head of the
      buffer. */
  lemma WholeFileCommits(c: Chunker, h: Bytes -> Digest, p: Bytes)
    requires WellFormed(c) && WholeFileBuffered(c, p)
    ensures var r := Commit(c.(buf := c.buf + p), h, |p|);
      && Conserves(c, p, r.state)
      && Remainder(c.buf + p, r.state.buf, c.chunkSize)
      && (r.err.None? ==> Settled(r.state))
      && (r.err.Some? ==> Refused(r.state, h, r.err.value))
      && (r.err.Some? <==> |c.buf| + |p| > 0 && !FindChunk(c, h(c.buf + p)).Found?)
      && (r.err.Some? ==> r.state == c.(buf := c.buf + p) && r.err.value == UnknownChunk(|c.buf| + |p|, c.chunkSize))
  {
    var c0 := c.(buf := c.buf + p);
    FindIgnoresBuf(c, h(c0.buf), c0.buf);
    assert c0.buf[0..] == c0.buf;
  }

  /** `WriteFixed` applies every piece it takes from the buffer, the
      whole-file case included: the count of applied pieces rises by the
      pieces those bytes make. */
  lemma WriteFixedPieces(c: Chunker, h: Bytes -> Digest, p: Bytes)
    requires WellFormed(c)
    ensures var r := WriteFixed(c, h, p);
      r.state.chunksDone == c.chunksDone + PieceCount(|c.buf + p| - |r.state.buf|, c.chunkSize)
  {
    var c0 := c.(buf := c.buf + p);
    if WholeFileBuffered(c, p) {
      assert |c0.buf| <= c0.chunkSize;
    }
  }

  /** Apply whatever is buffered; the buffer is cleared only on success. */
  function Flush(c: Chunker, h: Bytes -> Digest): (r: Flushed)
    requires WellFormed(c)
    ensures r.err.Some? <==> |c.buf| > 0 && !FindChunk(c, h(c.buf)).Found?
    ensures r.err.Some? ==> r.state == c && r.err.value == UnknownChunk(|c.buf|, c.chunkSize)
    ensures r.err.None? ==> r.state.buf == [] && r.state.bytesLeft == c.bytesLeft - |c.buf|
    ensures r.err.None? ==>
      r.state.chunksDone == c.chunksDone + (if |c.buf| > 0 then 1 else 0)
  {
    var a := Apply(c, h, c.buf);
    if a.err.Some? then Flushed(a.state, a.err) else Flushed(a.state.(buf := []), None)
  }

  /** The progress bitfield; in a consistent state bit i is set exactly when
      piece i has been applied. */
  function GetBitfield(c: Chunker): (bits: seq<bool>)
    ensures Consistent(c) ==>
      |bits| == |c.chunks| && forall i :: 0 <= i < |bits| ==> (bits[i] <==> c.chunks[i].applied)
  {
    c.bitfield
  }
}

=== FILE: consistency.dfy ===
/** The structural invariant of the chunker and what one `Apply` does to the
    applied flags, the cursor and the completion signal. Nothing here depends
    on the hash function. */
module Consistency {
  import opened Store
  import opened Chunker

  lemma {:induction false} CountBound(chunks: seq<Chunk>)
    ensures CountApplied(chunks) <= |chunks|
    ensures CountApplied(chunks) == |chunks| <==> forall i :: 0 <= i < |chunks| ==> chunks[i].applied
    ensures CountApplied(chunks) == 0 <==> forall i :: 0 <= i < |chunks| ==> !chunks[i].applied
    decreases |chunks|
  {
    if |chunks| > 0 {
      var init := chunks[..|chunks| - 1];
      CountBound(init);
      assert forall i :: 0 <= i < |init| ==> init[i] == chunks[i];
    }
  }

  /** Marking one unapplied chunk applied raises the count by exactly one. */
  lemma {:induction false} CountMark(chunks: seq<Chunk>, i: nat)
    requires i < |chunks| && !chunks[i].applied
    ensures CountApplied(chunks[i := chunks[i].(applied := true)]) == CountApplied(chunks) + 1
    decreases |chunks|
  {
    var marked := chunks[i := chunks[i].(applied := true)];
    var n := |chunks| - 1;
    if i < n {
      assert marked[..n] == chunks[..n][i := chunks[i].(applied := true)];
      CountMark(chunks[..n], i);
    } else {
      assert marked[..n] == chunks[..n];
    }
  }

  /** A fresh chunker is consistent. */
  lemma NewChunkerConsistent(hashList: seq<Digest>, chunkSize: int, fileSize: int)
    requires chunkSize > 0 && fileSize >= 0
    ensures NewChunker(hashList, chunkSize, fileSize).Ok?
    ensures Consistent(NewChunker(hashList, chunkSize, fileSize).value)
  {
    var c := NewChunker(hashList, chunkSize, fileSize).value;
    CountBound(c.chunks);
  }

  /** An accepted piece is an unapplied one at or after the cursor; the
      last conjunct unfolds the accepting branch of `Apply` for the proofs
      that follow. */
  lemma ApplyShape(c: Chunker, h: Bytes -> Digest, b: Bytes)
    requires Consistent(c)
    requires |b| > 0 && FindChunk(c, h(b)).Found?
    ensures var i := FindChunk(c, h(b)).index;
      var c1 := Record(c, i, b);
      && !c.chunks[i].applied
      && c.nextWritePiece <= i
      && Apply(c, h, b).state == Signal(if i == c.nextWritePiece then Emit(c1, i, b) else c1)
  {
    var i := FindChunk(c, h(b)).index;
    assert !c.bitfield[i];
  }

  /** What an accepted piece i changes: its bytes are written into the file
      at offset i * chunkSize, its flag and its bit are set together, no other
      flag or bit changes, `bytesLeft` drops by the bytes written and
      `chunksDone` rises by one; the sink only receives more writes. */
  lemma ApplyAccepted(c: Chunker, h: Bytes -> Digest, b: Bytes)
    requires Consistent(c)
    requires |b| > 0 && FindChunk(c, h(b)).Found?
    ensures var r, i := Apply(c, h, b), FindChunk(c, h(b)).index;
      && |r.state.chunks| == |c.chunks| && i < |c.chunks|
      && r.err.None? && r.n == |b|
      && r.state.file == WriteAt(c.file, Offset(i, c.chunkSize), b)
      && !c.chunks[i].applied && r.state.chunks[i].applied && r.state.bitfield[i]
      && (forall k :: 0 <= k < |c.chunks| && k != i ==>
            r.state.chunks[k] == c.chunks[k] && r.state.bitfield[k] == c.bitfield[k])
      && r.state.chunksDone == c.chunksDone + 1
      && r.state.bytesLeft == c.bytesLeft - |b|
      && |c.out| <= |r.state.out| && r.state.out[..|c.out|] == c.out
  {
    ApplyShape(c, h, b);
  }

  /** Every call of `Apply` keeps the invariant: flags and bitfield move
      together, `chunksDone` counts the applied pieces, the cursor stays the
      least unapplied index and the completion channel never receives a
      second value. */
  lemma ApplyConsistent(c: Chunker, h: Bytes -> Digest, b: Bytes)
    requires Consistent(c)
    ensures Consistent(Apply(c, h, b).state)
  {
    if Apply(c, h, b).err.None? && |b| > 0 {
      ApplyShape(c, h, b);
      AcceptedConsistent(c, FindChunk(c, h(b)).index, b);
    }
  }

  /** Recording an unapplied piece at or after the cursor, flushing if it is
      at the cursor and signalling keeps the invariant. */
  lemma AcceptedConsistent(c: Chunker, i: nat, b: Bytes)
    requires Consistent(c) && i < |c.chunks| && !c.chunks[i].applied && c.nextWritePiece <= i
    ensures var c1 := Record(c, i, b);
      Consistent(Signal(if i == c.nextWritePiece then Emit(c1, i, b) else c1))
  {
    RecordMarks(c, i, b);
    var c1 := Record(c, i, b);
    if i == c.nextWritePiece {
      SignalConsistent(Emit(c1, i, b));
    } else {
      SignalConsistent(c1);
    }
  }

  /** Recording marks piece i in the table and the bitfield together and
      counts it; the cursor still points at an unapplied piece when it is
      not piece i, and nothing has been signalled yet. */
  lemma RecordMarks(c: Chunker, i: nat, b: Bytes)
    requires Consistent(c) && i < |c.chunks| && !c.chunks[i].applied && c.nextWritePiece <= i
    ensures var c1 := Record(c, i, b);
      && (forall k :: 0 <= k < |c1.chunks| ==> c1.bitfield[k] == c1.chunks[k].applied)
      && c1.chunksDone == CountApplied(c1.chunks)
      && c1.doneSent == 0
      && (forall k :: 0 <= k < c1.nextWritePiece ==> c1.chunks[k].applied)
      && (c1.nextWritePiece != i ==> !c1.chunks[c1.nextWritePiece].applied)
  {
    CountMark(c.chunks, i);
    CountBound(c.chunks);
  }

  /** The signal step completes the invariant of a state whose flags,
      count and cursor are in order, that has applied at least one piece
      and that has not signalled yet. */
  lemma SignalConsistent(c: Chunker)
    requires WellFormed(c)
    requires forall k :: 0 <= k < |c.chunks| ==> c.bitfield[k] == c.chunks[k].applied
    requires 0 < c.chunksDone == CountApplied(c.chunks) && c.doneSent == 0
    requires c.nextWritePiece <= |c.chunks|
    requires forall k :: 0 <= k < c.nextWritePiece ==> c.chunks[k].applied
    requires c.nextWritePiece < |c.chunks| ==> !c.chunks[c.nextWritePiece].applied
    ensures Consistent(Signal(c))
  {
    CountBound(c.chunks);
  }

  /** The cursor moves only when the piece at the cursor is applied, and then
      to the first unapplied index after it. */
  lemma ApplyCursor(c: Chunker, h: Bytes -> Digest, b: Bytes)
    requires Consistent(c)
    ensures var r := Apply(c, h, b);
      if r.err.None? && |b| > 0 && FindChunk(c, h(b)).index == c.nextWritePiece then
        r.state.nextWritePiece == FirstUnapplied(r.state.chunks, c.nextWritePiece + 1)
      else
        r.state.nextWritePiece == c.nextWritePiece
  {
    var r := Apply(c, h, b);
    if r.err.None? && |b| > 0 {
      var i := FindChunk(c, h(b)).index;
      assert !c.chunks[i].applied;
      var c1 := Record(c, i, b);
      var c2 := if c1.nextWritePiece == i then Emit(c1, i, b) else c1;
      assert r.state == Signal(c2);
      if i == c.nextWritePiece {
        assert r.state.chunks[i].applied;
        assert r.state.nextWritePiece == FirstUnapplied(r.state.chunks, i);
      }
    }
  }

  /** The completion channel receives a value in exactly the `Apply` that
      makes `chunksDone` reach the piece count, and only there. */
  lemma ApplySignalsOnce(c: Chunker, h: Bytes -> Digest, b: Bytes)
    requires Consistent(c)
    ensures var r := Apply(c, h, b);
      && r.state.doneSent <= 1
      && (r.state.doneSent == c.doneSent + 1 <==>
            r.err.None? && |b| > 0 && r.state.chunksDone == |c.chunks|)
      && (r.state.doneSent == 1 <==> 0 < |c.chunks| && forall i :: 0 <= i < |c.chunks| ==> r.state.chunks[i].applied)
  {
    ApplyConsistent(c, h, b);
    var r := Apply(c, h, b);
    CountBound(r.state.chunks);
    CountBound(c.chunks);
    if r.err.None? && |b| > 0 {
      var i := FindChunk(c, h(b)).index;
      assert !c.chunks[i].applied;
    }
  }

  /** A piece whose digest first matches an applied chunk is refused with an
      error, and nothing changes: a duplicate submission is not a silent
      success. */
  lemma ApplyDuplicate(c: Chunker, h: Bytes -> Digest, b: Bytes, i: nat)
    requires Consistent(c)
    requires |b| > 0 && i < |c.chunks| && c.chunks[i].hash == h(b) && c.chunks[i].applied
    requires forall k :: 0 <= k < i ==> c.chunks[k].hash != h(b)
    ensures Apply(c, h, b) == Outcome(c, 0, Some(UnknownChunk(|b|, c.chunkSize)))
  {
    assert FindChunk(c, h(b)).index == i;
  }

  /** When two chunks share a digest, `Apply` never applies the later one. */
  lemma ApplyShadowed(c: Chunker, h: Bytes -> Digest, b: Bytes, i: nat, j: nat)
    requires WellFormed(c)
    requires i < j < |c.chunks| && c.chunks[i].hash == c.chunks[j].hash
    ensures Apply(c, h, b).state.chunks[j] == c.chunks[j]
  {
  }
}

=== FILE: delivery.dfy ===
/** Delivery: the streaming writer fed a whole file, in one call, on a fresh
    chunker, followed by `Flush`, accepts every piece, sends exactly the file
    to the sink, owes no more bytes and signals completion once. */
module Delivery {
  import opened Store
  import opened Chunker
  import opened Consistency
  import opened Output
  import opened Streaming
  import opened Reassembly

  /** Piece m, when a whole chunk follows offset m * cs, is that chunk, and
      it is listed in the table. */
  lemma PieceAt(content: Bytes, m: nat, cs: nat, off: nat, n: nat)
    requires cs > 0 && off == m * cs && off + cs < |content| <= n * cs
    ensures Piece(content, m, cs) == content[off..off + cs]
    ensures off + cs == (m + 1) * cs
    ensures m < n
  {
    if m >= n {
      MulMono(n, m, cs);
    }
  }

  /** How the applied prefix grows across one round of the loop: the round
      applies one piece and drops one chunk more than the rounds after it. */
  lemma AppliedAfterStep(w: Progress, r: Progress, n: nat, m: nat, cs: int)
    requires cs > 0 && w == Progress(r.state, cs + r.consumed, r.err)
    requires n <= |r.state.chunks|
    requires forall k :: 0 <= k < n ==> (r.state.chunks[k].applied <==> k < m + 1 + ChunkCount(r.consumed, cs))
    ensures forall k :: 0 <= k < n ==> (w.state.chunks[k].applied <==> k < m + ChunkCount(w.consumed, cs))
  {
    assert ChunkCount(w.consumed, cs) == 1 + ChunkCount(r.consumed, cs);
  }

  /** The state the loop is in before piece m: the table is the digest
      table of the content, exactly pieces 0 to m-1 are applied and the
      buffer holds the content from piece m on. */
  ghost predicate ReadyFor(c: Chunker, h: Bytes -> Digest, hashes: seq<Digest>, content: Bytes, m: nat, buf: Bytes)
  {
    && Consistent(c) && Hashes(c.chunks) == hashes && TableOf(h, hashes, content, c.chunkSize)
    && (forall k :: 0 <= k < |c.chunks| ==> (c.chunks[k].applied <==> k < m))
    && m * c.chunkSize <= |content| && buf == content[m * c.chunkSize..]
  }

  /** One round of the loop in order: the first chunk of `buf` is piece m,
      it is accepted, and the state it leaves is ready for piece m + 1. */
  lemma StepInOrder(c: Chunker, h: Bytes -> Digest, hashes: seq<Digest>, content: Bytes, m: nat, buf: Bytes)
    requires ReadyFor(c, h, hashes, content, m, buf) && |buf| > c.chunkSize
    ensures var a := Apply(c, h, buf[..c.chunkSize]);
      && a.err.None?
      && |a.state.chunks| == |c.chunks|
      && ReadyFor(a.state, h, hashes, content, m + 1, buf[c.chunkSize..])
  {
    var cs := c.chunkSize;
    var off := m * cs;
    PieceAt(content, m, cs, off, |hashes|);
    assert buf[..cs] == Piece(content, m, cs);
    PieceAccepted(c, h, hashes, content, m, buf[..cs]);
  }

  /** The slicing loop fed the content from piece m on, with exactly
      pieces 0 to m-1 applied, accepts every chunk it slices: it applies
      pieces m to j-1, where j - m is the number of chunks it drops. */
  lemma {:induction false} LoopInOrder(c: Chunker, h: Bytes -> Digest, hashes: seq<Digest>, content: Bytes, m: nat, buf: Bytes)
    requires ReadyFor(c, h, hashes, content, m, buf)
    ensures var r := WriteLoop(c, h, buf);
      && r.err.None?
      && forall k :: 0 <= k < |c.chunks| ==>
           (r.state.chunks[k].applied <==> k < m + ChunkCount(r.consumed, c.chunkSize))
    decreases |buf|
  {
    var cs := c.chunkSize;
    if c.bytesLeft > 0 && |buf| > cs {
      StepInOrder(c, h, hashes, content, m, buf);
      var s := Apply(c, h, buf[..cs]).state;
      LoopInOrder(s, h, hashes, content, m + 1, buf[cs..]);
      var r := WriteLoop(s, h, buf[cs..]);
      assert WriteLoop(c, h, buf) == Progress(r.state, cs + r.consumed, r.err);
      AppliedAfterStep(WriteLoop(c, h, buf), r, |c.chunks|, m, cs);
    }
  }

  /** A whole number of chunks is its count times the chunk size. */
  lemma {:induction false} WholeChunksCount(k: int, cs: int)
    requires cs > 0 && WholeChunks(k, cs)
    ensures k == ChunkCount(k, cs) * cs
    decreases k
  {
    if k != 0 {
      WholeChunksCount(k - cs, cs);
      assert ChunkCount(k, cs) == ChunkCount(k - cs, cs) + 1;
    }
  }

  /** A fresh chunker given the whole content, more than a chunk of it,
      slices and accepts every piece but the last, and stops at the start
      of the last piece. */
  lemma LoopFromFresh(c: Chunker, h: Bytes -> Digest, hashes: seq<Digest>, content: Bytes)
    requires Consistent(c) && Hashes(c.chunks) == hashes && TableOf(h, hashes, content, c.chunkSize)
    requires forall k :: 0 <= k < |c.chunks| ==> !c.chunks[k].applied
    requires c.bytesLeft == |content| && c.chunkSize < |content|
    ensures var l := WriteLoop(c, h, content);
      && l.err.None? && |hashes| > 0
      && l.consumed == (|hashes| - 1) * c.chunkSize && l.consumed < |content|
      && (forall k :: 0 <= k < |hashes| ==> (l.state.chunks[k].applied <==> k < |hashes| - 1))
  {
    assert content[0..] == content;
    LoopInOrder(c, h, hashes, content, 0, content);
    var l := WriteLoop(c, h, content);
    StopsAtLast(l.state.chunks, l.consumed, |hashes|, c.chunkSize, |content|);
  }

  /** A loop that applied exactly the chunks it dropped, a whole number of
      them, and stopped with at most a chunk left, stopped at the start of
      the last piece. */
  lemma StopsAtLast(chunks: seq<Chunk>, consumed: nat, n: nat, cs: int, len: int)
    requires cs > 0 && WholeChunks(consumed, cs) && consumed < len <= consumed + cs
    requires len <= n * cs && (n > 0 ==> (n - 1) * cs < len) && n <= |chunks|
    requires forall k :: 0 <= k < n ==> (chunks[k].applied <==> k < ChunkCount(consumed, cs))
    ensures n > 0 && consumed == (n - 1) * cs
    ensures forall k :: 0 <= k < n ==> (chunks[k].applied <==> k < n - 1)
  {
    WholeChunksCount(consumed, cs);
    LastIndex(ChunkCount(consumed, cs), n, cs, len);
  }

  /** A whole number j of chunks that falls short of the content by at most
      a chunk counts all pieces of the table but the last. */
  lemma LastIndex(j: nat, n: nat, cs: int, len: int)
    requires cs > 0 && j * cs < len <= j * cs + cs
    requires len <= n * cs && (n > 0 ==> (n - 1) * cs < len)
    ensures j + 1 == n
  {
    if j >= n {
      MulMono(n, j, cs);
    }
    if n > 0 && n - 1 >= j + 1 {
      MulMono(j + 1, n - 1, cs);
    }
  }

  /** The bytes from the start of the last of n pieces to the end of the
      content are that piece. */
  lemma TailPiece(content: Bytes, n: nat, cs: nat, off: int)
    requires n > 0 && off == (n - 1) * cs && off < |content| <= n * cs
    ensures content[off..] == Piece(content, n - 1, cs)
  {
    assert (n - 1 + 1) * cs == off + cs;
  }

  /** On a fresh chunker whose buffer holds the whole content, more than a
      chunk of it, the slicing loop leaves exactly the last piece buffered,
      unapplied, and owed, with every other piece applied. */
  lemma SliceLeavesLast(c0: Chunker, h: Bytes -> Digest, hashes: seq<Digest>, content: Bytes)
    requires Consistent(c0) && Hashes(c0.chunks) == hashes && TableOf(h, hashes, content, c0.chunkSize)
    requires forall k :: 0 <= k < |c0.chunks| ==> !c0.chunks[k].applied
    requires c0.buf == content && c0.bytesLeft == |content| && c0.chunkSize < |content|
    ensures var l := WriteLoop(c0, h, c0.buf);
      var s := l.state.(buf := c0.buf[l.consumed..]);
      && l.err.None? && |hashes| > 0
      && Consistent(s) && Hashes(s.chunks) == hashes && s.chunkSize == c0.chunkSize
      && (forall k :: 0 <= k < |hashes| ==> (s.chunks[k].applied <==> k < |hashes| - 1))
      && s.buf == Piece(content, |hashes| - 1, c0.chunkSize)
      && s.bytesLeft == |s.buf|
  {
    LoopFromFresh(c0, h, hashes, content);
    WriteLoopConsistent(c0, h, content);
    var l := WriteLoop(c0, h, content);
    TailPiece(content, |hashes|, c0.chunkSize, l.consumed);
  }

  /** From there the writer finishes the file: the last piece is applied
      either by the same call, when it is shorter than a chunk, or by the
      `Flush` that follows, when it is a whole chunk. Either way no call
      fails and every piece ends up applied. */
  lemma SliceFinishes(s: Chunker, h: Bytes -> Digest, hashes: seq<Digest>, content: Bytes)
    requires Consistent(s) && Hashes(s.chunks) == hashes && TableOf(h, hashes, content, s.chunkSize)
    requires |hashes| > 0 && forall k :: 0 <= k < |hashes| ==> (s.chunks[k].applied <==> k < |hashes| - 1)
    requires s.buf == Piece(content, |hashes| - 1, s.chunkSize) && s.bytesLeft == |s.buf|
    ensures var r := FinishWrite(s, h, |content|);
      var f := Flush(r.state, h);
      && r.err.None? && f.err.None?
      && forall k :: 0 <= k < |hashes| ==> f.state.chunks[k].applied
  {
    PieceAccepted(s, h, hashes, content, |hashes| - 1, s.buf);
  }

  /** The slicing part of the writer, on a fresh chunker whose buffer holds
      the whole content, with the `Flush` that follows, accepts every piece. */
  lemma SliceDelivers(c0: Chunker, h: Bytes -> Digest, hashes: seq<Digest>, content: Bytes)
    requires Consistent(c0) && Hashes(c0.chunks) == hashes && TableOf(h, hashes, content, c0.chunkSize)
    requires forall k :: 0 <= k < |c0.chunks| ==> !c0.chunks[k].applied
    requires c0.buf == content && c0.bytesLeft == |content| && c0.chunkSize < |content|
    ensures var r := SliceAndApply(c0, h, |content|);
      var f := Flush(r.state, h);
      && r.err.None? && f.err.None?
      && forall k :: 0 <= k < |hashes| ==> f.state.chunks[k].applied
  {
    SliceLeavesLast(c0, h, hashes, content);
    var l := WriteLoop(c0, h, c0.buf);
    SliceFinishes(l.state.(buf := c0.buf[l.consumed..]), h, hashes, content);
  }

  /** A file no longer than a chunk whose table covers it has one piece. */
  lemma OnePiece(n: int, cs: int, len: int)
    requires 0 < len <= cs && len <= n * cs && (n > 0 ==> (n - 1) * cs < len)
    ensures n == 1
  {
    if n <= 0 {
      MulMono(n, 0, cs);
    } else if n > 1 {
      MulMono(1, n - 1, cs);
    }
  }

  /** On a fresh chunker, the corrected writer given a whole file no longer
      than a chunk applies its one piece and clears the buffer. */
  lemma WholeFileFixedAccepted(c: Chunker, h: Bytes -> Digest, hashes: seq<Digest>, content: Bytes)
    requires Consistent(c) && Hashes(c.chunks) == hashes && TableOf(h, hashes, content, c.chunkSize)
    requires forall k :: 0 <= k < |c.chunks| ==> !c.chunks[k].applied
    requires c.buf == [] && WholeFileBuffered(c, content) && |content| > 0
    ensures var w := WriteFixed(c, h, content);
      && w.err.None? && w.state.buf == [] && |hashes| == 1 && w.state.chunks[0].applied
  {
    OnePiece(|hashes|, c.chunkSize, |content|);
    var c0 := c.(buf := c.buf + content);
    assert c0.buf == content == Piece(content, 0, c.chunkSize);
    PieceAccepted(c0, h, hashes, content, 0, content);
  }

  /** The delivery theorem for the streaming writer as written. For a fresh
      chunker over the digest table of a file longer than one chunk, one
      `Write` of the whole file followed by `Flush` succeeds; the sink then
      holds exactly the file, no byte is owed and completion has been
      signalled once. */
  lemma StreamDelivers(hashes: seq<Digest>, cs: int, content: Bytes, h: Bytes -> Digest)
    requires 0 < cs < |content|
    requires TableOf(h, hashes, content, cs) && Authentic(h, hashes, content, cs)
    ensures NewChunker(hashes, cs, |content|).Ok?
    ensures var w := Write(NewChunker(hashes, cs, |content|).value, h, content);
      var f := Flush(w.state, h);
      && w.err.None? && f.err.None?
      && Flatten(f.state.out) == content && f.state.bytesLeft == 0 && f.state.doneSent == 1
  {
    NewChunkerConsistent(hashes, cs, |content|);
    NewChunkerFaithful(hashes, cs, content);
    var c := NewChunker(hashes, cs, |content|).value;
    var c0 := c.(buf := c.buf + content);
    assert c0.buf == content;
    SliceDelivers(c0, h, hashes, content);
    WriteKeeps(c, h, content, content);
    var w := Write(c, h, content);
    FlushKeeps(w.state, h, content);
    AllApplied(Flush(w.state, h).state, content);
  }

  /** The same theorem for the corrected writer, now for every non-empty
      file: when the file fits in one chunk, the one call applies it and
      clears the buffer, and `Flush` has nothing left to do. */
  lemma StreamFixedDelivers(hashes: seq<Digest>, cs: int, content: Bytes, h: Bytes -> Digest)
    requires 0 < cs && 0 < |content|
    requires TableOf(h, hashes, content, cs) && Authentic(h, hashes, content, cs)
    ensures NewChunker(hashes, cs, |content|).Ok?
    ensures var w := WriteFixed(NewChunker(hashes, cs, |content|).value, h, content);
      var f := Flush(w.state, h);
      && w.err.None? && f.err.None?
      && Flatten(f.state.out) == content && f.state.bytesLeft == 0 && f.state.doneSent == 1
  {
    NewChunkerConsistent(hashes, cs, |content|);
    NewChunkerFaithful(hashes, cs, content);
    var c := NewChunker(hashes, cs, |content|).value;
    var c0 := c.(buf := c.buf + content);
    assert c0.buf == content;
    if cs < |content| {
      SliceDelivers(c0, h, hashes, content);
    } else {
      WholeFileFixedAccepted(c, h, hashes, content);
    }
    WriteFixedKeeps(c, h, content, content);
    var w := WriteFixed(c, h, content);
    FlushKeeps(w.state, h, content);
    AllApplied(Flush(w.state, h).state, content);
  }
}

=== FILE: output.dfy ===
/** What the chunker stores and what it sends to the output sink, measured
    against the file being reconstructed.

    The hash function is only assumed to be `Authentic` for the table: any
    bytes whose digest is the digest of piece i are exactly piece i of the
    original content. Under that assumption the backing file agrees with the
    content on every applied piece, and the concatenation of all sink writes
    is the backing file, and so the content, up to the cursor. */
module Output {
  import opened Store
  import opened Chunker
  import opened Consistency

  /** Bytes [lo*cs, hi*cs) of `s`, cut at the end: pieces lo to hi-1. */
  function Span(s: Bytes, lo: nat, hi: nat, cs: nat): (r: Bytes)
    requires lo <= hi
    ensures |r| == Min(hi * cs, |s|) - Min(lo * cs, |s|)
  {
    MulMono(lo, hi, cs);
    s[Min(lo * cs, |s|)..Min(hi * cs, |s|)]
  }

  /** Piece i of `content`: bytes [i*cs, (i+1)*cs), cut at the end. */
  function Piece(content: Bytes, i: nat, cs: nat): (p: Bytes)
  {
    Span(content, i, i + 1, cs)
  }

  /** Length of piece i of a file of `fs` bytes cut in chunks of `cs` bytes. */
  function PieceLen(i: nat, cs: nat, fs: nat): int
  {
    Min((i + 1) * cs, fs) - Min(i * cs, fs)
  }

  /** Bytes owed by the applied pieces. */
  function AppliedBytes(chunks: seq<Chunk>, cs: nat, fs: nat): int
  {
    if |chunks| == 0 then 0
    else
      var n := |chunks| - 1;
      AppliedBytes(chunks[..n], cs, fs) + (if chunks[n].applied then PieceLen(n, cs, fs) else 0)
  }

  /** Only the true piece i has the digest recorded for piece i. */
  ghost predicate Authentic(h: Bytes -> Digest, hashes: seq<Digest>, content: Bytes, cs: nat)
  {
    forall b: Bytes, i :: 0 <= i < |hashes| && h(b) == hashes[i] ==> b == Piece(content, i, cs)
  }

  /** The file is `fileSize` long, as is the content, and every applied
      piece starts inside it. */
  ghost predicate Sized(c: Chunker, content: Bytes)
  {
    && |c.file| == c.fileSize == |content|
    && (forall i :: 0 <= i < |c.chunks| && c.chunks[i].applied ==> i * c.chunkSize < c.fileSize)
  }

  /** Every applied piece holds the true bytes in the backing file. */
  ghost predicate StoreAgrees(c: Chunker, content: Bytes)
    requires Sized(c, content)
  {
    forall i, k :: 0 <= i < |c.chunks| && c.chunks[i].applied && i * c.chunkSize <= k < (i + 1) * c.chunkSize && k < c.fileSize ==>
      c.file[k] == content[k]
  }

  /** The sink has received exactly the file up to the cursor. */
  ghost predicate SinkIsFilePrefix(c: Chunker)
    requires c.chunkSize > 0 && c.nextWritePiece >= 0 && |c.file| == c.fileSize
  {
    Flatten(c.out) == c.file[..Min(c.nextWritePiece * c.chunkSize, c.fileSize)]
  }

  /** The backing file and the sink, measured against `content`. */
  ghost predicate Faithful(c: Chunker, content: Bytes)
    requires WellFormed(c)
  {
    && Sized(c, content)
    && StoreAgrees(c, content)
    && SinkIsFilePrefix(c)
    && c.bytesLeft == c.fileSize - AppliedBytes(c.chunks, c.chunkSize, c.fileSize)
  }

  lemma MulMono(a: int, b: int, m: int)
    requires 0 <= a <= b && 0 <= m
    ensures a * m <= b * m
  {
    assert b * m == a * m + (b - a) * m;
  }

  /** Byte k, below n pieces, lies in piece k / cs, which is below n. */
  lemma PieceIndex(k: nat, cs: nat, n: nat)
    requires cs > 0 && k < n * cs
    ensures (k / cs) * cs <= k < (k / cs + 1) * cs
    ensures k / cs < n
  {
    if k / cs >= n {
      MulMono(n, k / cs, cs);
    }
  }

  /** The batched read of the flush covers exactly pieces lo to hi-1. */
  lemma SpanRead(file: Bytes, lo: nat, hi: nat, cs: nat)
    requires lo <= hi
    ensures ReadAt(file, cs * lo, (hi - lo) * cs) == Span(file, lo, hi, cs)
  {
    assert cs * lo + (hi - lo) * cs == hi * cs;
  }

  lemma {:induction false} AppliedBytesMark(chunks: seq<Chunk>, i: nat, cs: nat, fs: nat)
    requires i < |chunks| && !chunks[i].applied
    ensures AppliedBytes(chunks[i := chunks[i].(applied := true)], cs, fs)
         == AppliedBytes(chunks, cs, fs) + PieceLen(i, cs, fs)
    decreases |chunks|
  {
    var marked := chunks[i := chunks[i].(applied := true)];
    var n := |chunks| - 1;
    if i < n {
      assert marked[..n] == chunks[..n][i := chunks[i].(applied := true)];
      AppliedBytesMark(chunks[..n], i, cs, fs);
    } else {
      assert marked[..n] == chunks[..n];
    }
  }

  lemma {:induction false} AppliedBytesNone(chunks: seq<Chunk>, cs: nat, fs: nat)
    requires forall i :: 0 <= i < |chunks| ==> !chunks[i].applied
    ensures AppliedBytes(chunks, cs, fs) == 0
    decreases |chunks|
  {
    if |chunks| > 0 {
      AppliedBytesNone(chunks[..|chunks| - 1], cs, fs);
    }
  }

  /** A fresh chunker is faithful to any content of the right size. */
  lemma NewChunkerFaithful(hashList: seq<Digest>, chunkSize: int, content: Bytes)
    requires chunkSize > 0
    ensures NewChunker(hashList, chunkSize, |content|).Ok?
    ensures Faithful(NewChunker(hashList, chunkSize, |content|).value, content)
  {
    var c := NewChunker(hashList, chunkSize, |content|).value;
    AppliedBytesNone(c.chunks, chunkSize, |content|);
  }

  /** An accepted piece is the true piece i, and it is not empty. */
  lemma AcceptedIsPiece(c: Chunker, h: Bytes -> Digest, b: Bytes, content: Bytes)
    requires WellFormed(c) && Sized(c, content)
    requires Authentic(h, Hashes(c.chunks), content, c.chunkSize)
    requires |b| > 0 && FindChunk(c, h(b)).Found?
    ensures var i := FindChunk(c, h(b)).index;
      && b == Piece(content, i, c.chunkSize)
      && i * c.chunkSize < c.fileSize
      && i * c.chunkSize + |b| == Min((i + 1) * c.chunkSize, c.fileSize)
      && |b| == PieceLen(i, c.chunkSize, c.fileSize)
  {
    var i := FindChunk(c, h(b)).index;
    assert h(b) == Hashes(c.chunks)[i];
  }

  /** The ordered flush: the piece in one write, then the run of applied
      pieces behind it, up to the first gap, in one more write. */
  lemma EmitRun(c: Chunker, i: nat, b: Bytes)
    requires WellFormed(c) && i < |c.chunks| && c.nextWritePiece == i && c.chunks[i].applied
    ensures var r := Emit(c, i, b);
      var j := r.nextWritePiece;
      && r == c.(out := r.out, nextWritePiece := j)
      && j == FirstUnapplied(c.chunks, i + 1)
      && i < j
      && (j == i + 1 ==> r.out == c.out + [b])
      && (j > i + 1 ==> r.out == c.out + [b, Span(c.file, i + 1, j, c.chunkSize)])
  {
    var j := FirstUnapplied(c.chunks, i);
    if j > i + 1 {
      SpanRead(c.file, i + 1, j, c.chunkSize);
    }
  }

  /** Sink writes that continue a prefix of the file keep it a prefix. */
  lemma FlattenExtend(out: seq<Bytes>, b: Bytes, run: Bytes, file: Bytes, lo: nat, hi: nat)
    requires lo <= hi <= |file|
    requires Flatten(out) + b == file[..lo] && run == file[lo..hi]
    ensures Flatten(out + [b]) == file[..lo]
    ensures Flatten(out + [b, run]) == file[..hi]
  {
    FlattenSnoc(out, b);
    assert out + [b, run] == (out + [b]) + [run];
    FlattenSnoc(out + [b], run);
    assert file[..lo] + file[lo..hi] == file[..hi];
  }

  /** After the flush the sink holds the file up to the new cursor, given
      that it held it up to the piece and the piece is in place. */
  lemma EmitPrefix(c: Chunker, i: nat, b: Bytes)
    requires WellFormed(c) && i < |c.chunks| && c.nextWritePiece == i && c.chunks[i].applied
    requires |c.file| == c.fileSize
    requires i * c.chunkSize + |b| == Min((i + 1) * c.chunkSize, c.fileSize)
    requires Flatten(c.out) + b == c.file[..i * c.chunkSize + |b|]
    ensures SinkIsFilePrefix(Emit(c, i, b))
  {
    var cs, fs := c.chunkSize, c.fileSize;
    EmitRun(c, i, b);
    var j := Emit(c, i, b).nextWritePiece;
    MulMono(i + 1, j, cs);
    var lo, hi := Min((i + 1) * cs, fs), Min(j * cs, fs);
    FlattenExtend(c.out, b, c.file[lo..hi], c.file, lo, hi);
  }

  /** Storing the true piece i keeps the file sized and agreeing with the
      content, changes nothing before the piece and puts it in place. */
  lemma RecordAgrees(c: Chunker, i: nat, b: Bytes, content: Bytes)
    requires WellFormed(c) && i < |c.chunks|
    requires Sized(c, content) && StoreAgrees(c, content)
    requires b == Piece(content, i, c.chunkSize)
    requires i * c.chunkSize < c.fileSize
    requires i * c.chunkSize + |b| == Min((i + 1) * c.chunkSize, c.fileSize)
    ensures var r := Record(c, i, b);
      && Sized(r, content)
      && StoreAgrees(r, content)
      && r.file[..i * c.chunkSize] == c.file[..i * c.chunkSize]
      && r.file[i * c.chunkSize..i * c.chunkSize + |b|] == b
  {
    var cs, fs := c.chunkSize, c.fileSize;
    var r := Record(c, i, b);
    var off := i * cs;
    assert |r.file| == fs;
    forall j, k | 0 <= j < |r.chunks| && r.chunks[j].applied && j * cs <= k < (j + 1) * cs && k < fs
      ensures r.file[k] == content[k]
    {
      if off <= k < off + |b| {
        assert r.file[k] == b[k - off];
      } else {
        assert r.file[k] == c.file[k];
      }
    }
    assert r.file[..off] == c.file[..off];
  }

  /** What one `Apply` sends to the sink. A piece that is not at the cursor
      sends nothing. The piece at the cursor is sent in one write; when the
      pieces after it up to the next gap are already applied, they follow in
      exactly one more write, read back from the file in one piece. */
  lemma ApplyOutput(c: Chunker, h: Bytes -> Digest, b: Bytes)
    requires Consistent(c)
    ensures var r := Apply(c, h, b);
      if r.err.None? && |b| > 0 && FindChunk(c, h(b)).index == c.nextWritePiece then
        var i, j := c.nextWritePiece, r.state.nextWritePiece;
        && i < j
        && (j == i + 1 ==> r.state.out == c.out + [b])
        && (j > i + 1 ==> r.state.out == c.out + [b, Span(r.state.file, i + 1, j, c.chunkSize)])
      else
        r.state.out == c.out
  {
    var r := Apply(c, h, b);
    if r.err.None? && |b| > 0 {
      ApplyShape(c, h, b);
      var i := FindChunk(c, h(b)).index;
      if i == c.nextWritePiece {
        EmitRun(Record(c, i, b), i, b);
      }
    }
  }

  /** Every call of `Apply` keeps the backing file and the sink faithful:
      the file stays `fileSize` long, applied pieces hold the true bytes,
      the sink has received exactly the file up to the cursor, and
      `bytesLeft` is what the unapplied pieces still owe. */
  lemma ApplyFaithful(c: Chunker, h: Bytes -> Digest, b: Bytes, content: Bytes)
    requires Consistent(c) && Faithful(c, content)
    requires Authentic(h, Hashes(c.chunks), content, c.chunkSize)
    ensures Faithful(Apply(c, h, b).state, content)
  {
    if Apply(c, h, b).err.None? && |b| > 0 {
      ApplyShape(c, h, b);
      AcceptedIsPiece(c, h, b, content);
      AcceptedFaithful(c, FindChunk(c, h(b)).index, b, content);
    }
  }

  /** Recording the true piece i, flushing if it is at the cursor and
      signalling keeps the state faithful. */
  lemma AcceptedFaithful(c: Chunker, i: nat, b: Bytes, content: Bytes)
    requires Consistent(c) && Faithful(c, content)
    requires i < |c.chunks| && !c.chunks[i].applied && c.nextWritePiece <= i
    requires b == Piece(content, i, c.chunkSize) && i * c.chunkSize < c.fileSize
    requires i * c.chunkSize + |b| == Min((i + 1) * c.chunkSize, c.fileSize)
    requires |b| == PieceLen(i, c.chunkSize, c.fileSize)
    ensures var c1 := Record(c, i, b);
      Faithful(Signal(if i == c.nextWritePiece then Emit(c1, i, b) else c1), content)
  {
    RecordAgrees(c, i, b, content);
    AppliedBytesMark(c.chunks, i, c.chunkSize, c.fileSize);
    AcceptedSinkPrefix(c, i, b);
  }

  /** The sink part of `ApplyFaithful`, for the piece i just accepted. */
  lemma AcceptedSinkPrefix(c: Chunker, i: nat, b: Bytes)
    requires Consistent(c) && |c.file| == c.fileSize && SinkIsFilePrefix(c)
    requires i < |c.chunks| && !c.chunks[i].applied
    requires i * c.chunkSize < c.fileSize
    requires i * c.chunkSize + |b| == Min((i + 1) * c.chunkSize, c.fileSize)
    requires var c1 := Record(c, i, b);
      && |c1.file| == c1.fileSize
      && c1.file[..i * c.chunkSize] == c.file[..i * c.chunkSize]
      && c1.file[i * c.chunkSize..i * c.chunkSize + |b|] == b
    ensures var c1 := Record(c, i, b);
      SinkIsFilePrefix(if i == c.nextWritePiece then Emit(c1, i, b) else c1)
  {
    var cs, fs := c.chunkSize, c.fileSize;
    var c1 := Record(c, i, b);
    if i == c.nextWritePiece {
      assert c1.file[..i * cs + |b|] == c1.file[..i * cs] + b;
      EmitPrefix(c1, i, b);
    } else {
      assert c.nextWritePiece < i;
      MulMono(c.nextWritePiece, i, cs);
      var M := Min(c.nextWritePiece * cs, fs);
      assert c1.file[..M] == c.file[..M];
    }
  }

  /** The sink half of the invariant holds whatever the hash function:
      as long as every input `Apply` accepts is as long as the piece it is
      accepted as, the file stays `fileSize` long and the sink keeps
      holding exactly the file up to the cursor. */
  lemma ApplyKeepsSinkPrefix(c: Chunker, h: Bytes -> Digest, b: Bytes)
    requires Consistent(c) && |c.file| == c.fileSize && SinkIsFilePrefix(c)
    requires |b| > 0 && FindChunk(c, h(b)).Found? ==>
      |b| == PieceLen(FindChunk(c, h(b)).index, c.chunkSize, c.fileSize)
    ensures var r := Apply(c, h, b).state;
      |r.file| == r.fileSize && SinkIsFilePrefix(r)
  {
    if |b| > 0 && FindChunk(c, h(b)).Found? {
      ApplyShape(c, h, b);
      var i := FindChunk(c, h(b)).index;
      PieceStart(i, c.chunkSize, c.fileSize, |b|);
      AcceptedSinkPrefix(c, i, b);
    }
  }

  /** A non-empty piece starts inside the file and ends where its chunk or
      the file ends. */
  lemma PieceStart(i: nat, cs: nat, fs: nat, len: int)
    requires cs > 0 && 0 < len == PieceLen(i, cs, fs)
    ensures i * cs < fs && i * cs + len == Min((i + 1) * cs, fs)
  {
    MulMono(i, i + 1, cs);
  }

  /** The file agrees with the content below the first n pieces when they
      are all applied. */
  lemma FileAgreesBelow(c: Chunker, content: Bytes, n: nat)
    requires WellFormed(c) && Sized(c, content) && StoreAgrees(c, content)
    requires n <= |c.chunks| && forall k :: 0 <= k < n ==> c.chunks[k].applied
    ensures c.file[..Min(n * c.chunkSize, c.fileSize)] == content[..Min(n * c.chunkSize, c.fileSize)]
  {
    var cs := c.chunkSize;
    forall k | 0 <= k < Min(n * cs, c.fileSize)
      ensures c.file[k] == content[k]
    {
      PieceIndex(k, cs, n);
      assert c.chunks[k / cs].applied;
    }
  }

  /** In a consistent, faithful state the sink has received exactly the
      original content up to the cursor, each byte once and in order. */
  lemma OutputIsContentPrefix(c: Chunker, content: Bytes)
    requires Consistent(c) && Faithful(c, content)
    ensures Flatten(c.out) == content[..Min(c.nextWritePiece * c.chunkSize, c.fileSize)]
  {
    FileAgreesBelow(c, content, c.nextWritePiece);
  }
}

=== FILE: reassembly.dfy ===
/** Reassembly: a fresh chunker fed every piece of a file exactly once, in
    any order, accepts them all, sends exactly the file to the sink, owes no
    more bytes and signals completion once. */
module Reassembly {
  import opened Store
  import opened Chunker
  import opened Consistency
  import opened Output
  import opened Streaming

  /** The pieces of `content` named by `order`, in that order. */
  function Pieces(content: Bytes, order: seq<nat>, cs: nat): (ps: seq<Bytes>)
    ensures |ps| == |order|
    ensures forall k :: 0 <= k < |order| ==> ps[k] == Piece(content, order[k], cs)
  {
    seq(|order|, k requires 0 <= k < |order| => Piece(content, order[k], cs))
  }

  /** Entries i and j of a digest table differ. */
  predicate Differ(hashes: seq<Digest>, i: int, j: int)
    requires 0 <= i < |hashes| && 0 <= j < |hashes|
  {
    hashes[i] != hashes[j]
  }

  /** Entry i of a digest table is the digest of piece i. */
  predicate Listed(h: Bytes -> Digest, hashes: seq<Digest>, content: Bytes, cs: nat, i: int)
    requires 0 <= i < |hashes|
  {
    hashes[i] == h(Piece(content, i, cs))
  }

  /** The digest table of `content`: no two entries alike, entry i the
      digest of piece i, the last piece non-empty, and the pieces cover the
      whole content. */
  ghost predicate TableOf(h: Bytes -> Digest, hashes: seq<Digest>, content: Bytes, cs: nat)
  {
    && (forall i, j :: 0 <= i < j < |hashes| ==> Differ(hashes, i, j))
    && (forall i :: 0 <= i < |hashes| ==> Listed(h, hashes, content, cs, i))
    && (|hashes| > 0 ==> (|hashes| - 1) * cs < |content|)
    && |content| <= |hashes| * cs
  }

  /** The applied bytes of a fully applied table are the file, cut at the
      end of the last piece. */
  lemma {:induction false} AppliedBytesAll(chunks: seq<Chunk>, cs: nat, fs: nat)
    requires forall i :: 0 <= i < |chunks| ==> chunks[i].applied
    ensures AppliedBytes(chunks, cs, fs) == Min(|chunks| * cs, fs)
    decreases |chunks|
  {
    if |chunks| > 0 {
      var n := |chunks| - 1;
      AppliedBytesAll(chunks[..n], cs, fs);
    }
  }

  /** Submitting the true piece i while it is unapplied succeeds, keeps the
      structural invariant and marks exactly piece i applied. */
  lemma PieceAccepted(c: Chunker, h: Bytes -> Digest, hashes: seq<Digest>, content: Bytes, i: nat, b: Bytes)
    requires Consistent(c) && Hashes(c.chunks) == hashes && TableOf(h, hashes, content, c.chunkSize)
    requires i < |c.chunks| && !c.chunks[i].applied && b == Piece(content, i, c.chunkSize)
    ensures var a := Apply(c, h, b);
      && a.err.None?
      && Consistent(a.state)
      && forall k :: 0 <= k < |c.chunks| ==> (a.state.chunks[k].applied <==> c.chunks[k].applied || k == i)
  {
    assert Listed(h, hashes, content, c.chunkSize, i);
    MulMono(i, |hashes| - 1, c.chunkSize);
    MulMono(i, i + 1, c.chunkSize);
    assert |b| > 0;
    forall j | 0 <= j < i
      ensures hashes[j] != h(b)
    {
      assert Differ(hashes, j, i);
    }
    FirstMatch(c, hashes, i, h(b));
    ApplyAccepted(c, h, b);
    ApplyConsistent(c, h, b);
  }

  /** A digest listed at i and at no earlier index is found at i. */
  lemma FirstMatch(c: Chunker, hashes: seq<Digest>, i: nat, hash: Digest)
    requires Hashes(c.chunks) == hashes && i < |hashes| && hashes[i] == hash
    requires forall j :: 0 <= j < i ==> hashes[j] != hash
    ensures !FindChunk(c, hash).NotFound? && FindChunk(c, hash).index == i
  {
    assert c.chunks[i].hash == hash;
  }

  /** The state a run of `order` starts from: the table is the digest table
      of the content and `order` names distinct pieces, none applied yet. */
  ghost predicate ReadyForAll(c: Chunker, h: Bytes -> Digest, hashes: seq<Digest>, content: Bytes, order: seq<nat>)
  {
    && Consistent(c) && Hashes(c.chunks) == hashes && TableOf(h, hashes, content, c.chunkSize)
    && (forall j, k :: 0 <= j < k < |order| ==> order[j] != order[k])
    && (forall k :: 0 <= k < |order| ==> order[k] < |c.chunks| && !c.chunks[order[k]].applied)
  }

  /** Submitting the first piece of such a run is accepted, marks exactly
      that piece, and leaves a state ready for the rest of the run. */
  lemma PieceStep(c: Chunker, h: Bytes -> Digest, hashes: seq<Digest>, content: Bytes, order: seq<nat>)
    requires ReadyForAll(c, h, hashes, content, order) && |order| > 0
    ensures var a := Apply(c, h, Piece(content, order[0], c.chunkSize));
      && a.err.None?
      && |a.state.chunks| == |c.chunks|
      && (forall k :: 0 <= k < |c.chunks| ==> (a.state.chunks[k].applied <==> c.chunks[k].applied || k == order[0]))
      && ReadyForAll(a.state, h, hashes, content, order[1..])
  {
    PieceAccepted(c, h, hashes, content, order[0], Piece(content, order[0], c.chunkSize));
  }

  /** Submitting distinct unapplied pieces in any order succeeds and marks
      exactly them applied. */
  lemma {:induction false} ApplyAllPieces(c: Chunker, h: Bytes -> Digest, hashes: seq<Digest>, content: Bytes, order: seq<nat>)
    requires ReadyForAll(c, h, hashes, content, order)
    ensures var r := ApplyAll(c, h, Pieces(content, order, c.chunkSize));
      && r.err.None?
      && forall k :: 0 <= k < |c.chunks| ==> (r.state.chunks[k].applied <==> c.chunks[k].applied || k in order)
    decreases |order|
  {
    var ps := Pieces(content, order, c.chunkSize);
    if |order| > 0 {
      PieceStep(c, h, hashes, content, order);
      var a := Apply(c, h, ps[0]);
      ApplyAllPieces(a.state, h, hashes, content, order[1..]);
      PiecesTail(content, order, c.chunkSize);
      ApplyAllCons(c, h, ps);
      InTail(order);
    }
  }

  /** A consistent, faithful state with every piece applied has sent the
      whole content, owes nothing, has its cursor past the last piece and
      has signalled completion once (for a non-empty table). */
  lemma AllApplied(s: Chunker, content: Bytes)
    requires Consistent(s) && Faithful(s, content)
    requires forall k :: 0 <= k < |s.chunks| ==> s.chunks[k].applied
    requires |content| <= |s.chunks| * s.chunkSize
    ensures Flatten(s.out) == content
    ensures s.bytesLeft == 0
    ensures s.nextWritePiece == |s.chunks|
    ensures s.doneSent == (if |s.chunks| > 0 then 1 else 0)
  {
    CountBound(s.chunks);
    AppliedBytesAll(s.chunks, s.chunkSize, s.fileSize);
    OutputIsContentPrefix(s, content);
  }

  lemma PiecesTail(content: Bytes, order: seq<nat>, cs: nat)
    requires |order| > 0
    ensures Pieces(content, order[1..], cs) == Pieces(content, order, cs)[1..]
  {
  }

  lemma InTail(order: seq<nat>)
    requires |order| > 0
    ensures forall k :: k in order <==> k == order[0] || k in order[1..]
  {
    assert order == [order[0]] + order[1..];
  }

  /** When the first piece is accepted, the run continues from its state. */
  lemma ApplyAllCons(c: Chunker, h: Bytes -> Digest, ps: seq<Bytes>)
    requires WellFormed(c) && |ps| > 0 && Apply(c, h, ps[0]).err.None?
    ensures ApplyAll(c, h, ps) == ApplyAll(Apply(c, h, ps[0]).state, h, ps[1..])
  {
  }

  /** The reassembly theorem. For a fresh chunker over the digest table of
      `content`, submitting every piece exactly once, in any order, is
      accepted; the sink then holds exactly the content, no byte is owed,
      the cursor is past the last piece and completion has been signalled
      once (for a non-empty table). */
  lemma Reassemble(hashes: seq<Digest>, cs: int, content: Bytes, h: Bytes -> Digest, order: seq<nat>)
    requires cs > 0
    requires TableOf(h, hashes, content, cs) && Authentic(h, hashes, content, cs)
    requires |order| == |hashes|
    requires forall j, k :: 0 <= j < k < |order| ==> order[j] != order[k]
    requires forall k :: 0 <= k < |order| ==> order[k] < |hashes|
    ensures NewChunker(hashes, cs, |content|).Ok?
    ensures var r := ApplyAll(NewChunker(hashes, cs, |content|).value, h, Pieces(content, order, cs));
      && r.err.None?
      && Flatten(r.state.out) == content
      && r.state.bytesLeft == 0
      && r.state.nextWritePiece == |hashes|
      && r.state.doneSent == (if |hashes| > 0 then 1 else 0)
  {
    NewChunkerConsistent(hashes, cs, |content|);
    NewChunkerFaithful(hashes, cs, content);
    var c := NewChunker(hashes, cs, |content|).value;
    var ps := Pieces(content, order, cs);
    ApplyAllPieces(c, h, hashes, content, order);
    ApplyAllKeeps(c, h, ps, content);
    var s := ApplyAll(c, h, ps).state;
    forall k | 0 <= k < |s.chunks|
      ensures s.chunks[k].applied
    {
      PermutationCovers(order, k);
    }
    AllApplied(s, content);
  }

  /** A sequence of n distinct indices below n names every index below n. */
  lemma PermutationCovers(order: seq<nat>, k: nat)
    requires forall j, l :: 0 <= j < l < |order| ==> order[j] != order[l]
    requires forall j :: 0 <= j < |order| ==> order[j] < |order|
    requires k < |order|
    ensures k in order
  {
    if k !in order {
      var n := |order|;
      var t := seq(n, j requires 0 <= j < n => if order[j] == n - 1 then k else order[j]);
      DistinctBelow(t, n - 1);
      assert false;
    }
  }

  /** Distinct indices all below m number at most m. */
  lemma {:induction false} DistinctBelow(s: seq<nat>, m: nat)
    requires forall j, l :: 0 <= j < l < |s| ==> s[j] != s[l]
    requires forall j :: 0 <= j < |s| ==> s[j] < m
    ensures |s| <= m
    decreases m
  {
    if |s| > 0 {
      assert s[0] < m;
      if m - 1 in s {
        var p :| 0 <= p < |s| && s[p] == m - 1;
        var t := s[..p] + s[p + 1..];
        assert forall j :: 0 <= j < |t| ==> t[j] == (if j < p then s[j] else s[j + 1]);
        DistinctBelow(t, m - 1);
      } else {
        DistinctBelow(s, m - 1);
      }
    }
  }
}

=== FILE: store.dfy ===
/** Byte strings and the backing file of the chunker.

    The backing file is a plain byte sequence. A positioned write behaves like
    `WriteAt` on a file: it overwrites in place, zero-fills a hole when the
    offset lies past the end, and grows the file when the write runs past the
    end. A positioned read stops at end of file, like `ReadAt` followed by
    truncating the buffer to the bytes actually read.
 */
module Store {

  newtype byte = x: int | 0 <= x < 256

  type Bytes = seq<byte>

  function Min(a: int, b: int): int
  {
    if a <= b then a else b
  }

  /** The contents of a file freshly truncated to `n` bytes. */
  function Zeros(n: nat): (z: Bytes)
    ensures |z| == n
    ensures forall k :: 0 <= k < n ==> z[k] == 0
  {
    seq(n, _ => 0)
  }

  /** Everything a sink received, in the order it was written. */
  function Flatten(ws: seq<Bytes>): Bytes
  {
    if |ws| == 0 then [] else Flatten(ws[..|ws| - 1]) + ws[|ws| - 1]
  }

  lemma FlattenSnoc(ws: seq<Bytes>, w: Bytes)
    ensures Flatten(ws + [w]) == Flatten(ws) + w
  {
    assert (ws + [w])[..|ws|] == ws;
  }

  /** Positioned write of `b` at offset `off`. */
  function WriteAt(file: Bytes, off: nat, b: Bytes): (r: Bytes)
    ensures |r| == if off + |b| > |file| then off + |b| else |file|
    ensures r[off..off + |b|] == b
    ensures forall k :: 0 <= k < |r| && (k < off || off + |b| <= k) ==>
              r[k] == if k < |file| then file[k] else 0
  {
    var head := if off <= |file| then file[..off] else file + Zeros(off - |file|);
    var tail := if off + |b| < |file| then file[off + |b|..] else [];
    head + b + tail
  }

  /** Positioned read of at most `len` bytes from offset `off`, cut at end of file. */
  function ReadAt(file: Bytes, off: nat, len: nat): (r: Bytes)
    ensures |r| == Min(off + len, |file|) - Min(off, |file|)
    ensures forall k :: 0 <= k < |r| ==> r[k] == file[off + k]
  {
    file[Min(off, |file|)..Min(off + len, |file|)]
  }
}

=== FILE: streaming.dfy ===
/** The streaming writer: `Write` slices the caller's byte stream into
    chunk-sized pieces and hands them to `Apply` in order; `Flush` applies
    what is left. */
module Streaming {
  import opened Store
  import opened Chunker
  import opened Consistency
  import opened Output

  /** A sequence of `Apply` calls keeps both invariants. */
  lemma {:induction false} ApplyAllKeeps(c: Chunker, h: Bytes -> Digest, pieces: seq<Bytes>, content: Bytes)
    requires Consistent(c) && Faithful(c, content)
    requires Authentic(h, Hashes(c.chunks), content, c.chunkSize)
    ensures Consistent(ApplyAll(c, h, pieces).state)
    ensures Faithful(ApplyAll(c, h, pieces).state, content)
    decreases |pieces|
  {
    if |pieces| > 0 {
      ApplyConsistent(c, h, pieces[0]);
      ApplyFaithful(c, h, pieces[0], content);
      var a := Apply(c, h, pieces[0]);
      if a.err.None? {
        ApplyAllKeeps(a.state, h, pieces[1..], content);
      }
    }
  }

  /** The invariants do not look at the buffer. */
  lemma RebufferKeeps(c: Chunker, buf: Bytes, content: Bytes)
    requires Consistent(c) && Faithful(c, content)
    ensures Consistent(c.(buf := buf)) && Faithful(c.(buf := buf), content)
  {
  }

  /** One `Apply` keeps both invariants. */
  lemma ApplyKeeps(c: Chunker, h: Bytes -> Digest, b: Bytes, content: Bytes)
    requires Consistent(c) && Faithful(c, content)
    requires Authentic(h, Hashes(c.chunks), content, c.chunkSize)
    ensures Consistent(Apply(c, h, b).state) && Faithful(Apply(c, h, b).state, content)
  {
    ApplyConsistent(c, h, b);
    ApplyFaithful(c, h, b, content);
  }

  /** `Write` keeps both invariants. */
  lemma WriteKeeps(c: Chunker, h: Bytes -> Digest, p: Bytes, content: Bytes)
    requires Consistent(c) && Faithful(c, content)
    requires Authentic(h, Hashes(c.chunks), content, c.chunkSize)
    ensures Consistent(Write(c, h, p).state) && Faithful(Write(c, h, p).state, content)
  {
    var c0 := c.(buf := c.buf + p);
    RebufferKeeps(c, c0.buf, content);
    if WholeFileBuffered(c, p) {
      ApplyKeeps(c0, h, p, content);
    } else {
      SlicedKeeps(c0, h, |p|, content);
    }
  }

  /** The corrected `WriteFixed` keeps both invariants. */
  lemma WriteFixedKeeps(c: Chunker, h: Bytes -> Digest, p: Bytes, content: Bytes)
    requires Consistent(c) && Faithful(c, content)
    requires Authentic(h, Hashes(c.chunks), content, c.chunkSize)
    ensures Consistent(WriteFixed(c, h, p).state) && Faithful(WriteFixed(c, h, p).state, content)
  {
    var c0 := c.(buf := c.buf + p);
    RebufferKeeps(c, c0.buf, content);
    if WholeFileBuffered(c, p) {
      ApplyKeeps(c0, h, c0.buf, content);
      RebufferKeeps(Apply(c0, h, c0.buf).state, [], content);
    } else {
      SlicedKeeps(c0, h, |p|, content);
    }
  }

  /** The slicing part of the writer keeps both invariants. */
  lemma SlicedKeeps(c0: Chunker, h: Bytes -> Digest, n: int, content: Bytes)
    requires Consistent(c0) && Faithful(c0, content)
    requires Authentic(h, Hashes(c0.chunks), content, c0.chunkSize)
    ensures Consistent(SliceAndApply(c0, h, n).state) && Faithful(SliceAndApply(c0, h, n).state, content)
  {
    WriteLoopConsistent(c0, h, c0.buf);
    WriteLoopFaithful(c0, h, c0.buf, content);
    var l := WriteLoop(c0, h, c0.buf);
    RebufferKeeps(l.state, c0.buf[l.consumed..], content);
    FinishKeeps(l.state.(buf := c0.buf[l.consumed..]), h, n, content);
  }

  /** The last step of the writer keeps both invariants. */
  lemma FinishKeeps(s: Chunker, h: Bytes -> Digest, n: int, content: Bytes)
    requires Consistent(s) && Faithful(s, content)
    requires Authentic(h, Hashes(s.chunks), content, s.chunkSize)
    ensures Consistent(FinishWrite(s, h, n).state) && Faithful(FinishWrite(s, h, n).state, content)
  {
    ApplyKeeps(s, h, s.buf, content);
    RebufferKeeps(Apply(s, h, s.buf).state, [], content);
  }

  /** The slicing loop keeps the structural invariant, whatever the hash. */
  lemma {:induction false} WriteLoopConsistent(c: Chunker, h: Bytes -> Digest, buf: Bytes)
    requires Consistent(c)
    ensures Consistent(WriteLoop(c, h, buf).state)
    decreases |buf|
  {
    if c.bytesLeft > 0 && |buf| > c.chunkSize {
      ApplyConsistent(c, h, buf[..c.chunkSize]);
      var a := Apply(c, h, buf[..c.chunkSize]);
      if a.err.None? {
        WriteLoopConsistent(a.state, h, buf[c.chunkSize..]);
      }
    }
  }

  /** The slicing loop keeps the content invariant. */
  lemma {:induction false} WriteLoopFaithful(c: Chunker, h: Bytes -> Digest, buf: Bytes, content: Bytes)
    requires Consistent(c) && Faithful(c, content)
    requires Authentic(h, Hashes(c.chunks), content, c.chunkSize)
    ensures Faithful(WriteLoop(c, h, buf).state, content)
    decreases |buf|
  {
    if c.bytesLeft > 0 && |buf| > c.chunkSize {
      ApplyConsistent(c, h, buf[..c.chunkSize]);
      ApplyFaithful(c, h, buf[..c.chunkSize], content);
      var a := Apply(c, h, buf[..c.chunkSize]);
      if a.err.None? {
        WriteLoopFaithful(a.state, h, buf[c.chunkSize..], content);
      }
    }
  }

  /** `Flush` keeps both invariants. */
  lemma FlushKeeps(c: Chunker, h: Bytes -> Digest, content: Bytes)
    requires Consistent(c) && Faithful(c, content)
    requires Authentic(h, Hashes(c.chunks), content, c.chunkSize)
    ensures Consistent(Flush(c, h).state) && Faithful(Flush(c, h).state, content)
  {
    ApplyConsistent(c, h, c.buf);
    ApplyFaithful(c, h, c.buf, content);
    RebufferKeeps(Apply(c, h, c.buf).state, [], content);
  }

  /** When the last piece still owed is exactly one chunk long and arrives on
      its own, `Write` leaves it buffered: the loop needs strictly more than
      a chunk, and the final-piece test needs strictly less. Only `Flush`
      applies it. */
  lemma FinalFullChunkWaits(c: Chunker, h: Bytes -> Digest, p: Bytes)
    requires Consistent(c) && c.buf == []
    requires c.chunkSize < c.fileSize && c.bytesLeft == c.chunkSize && |p| == c.chunkSize
    ensures Write(c, h, p) == Outcome(c.(buf := p), |p|, None)
    ensures Flush(c.(buf := p), h).err.None? ==>
      Flush(c.(buf := p), h).state.chunksDone == c.chunksDone + 1
  {
    var c0 := c.(buf := c.buf + p);
    assert c.buf + p == p;
    assert WriteLoop(c0, h, p) == Progress(c0, 0, None);
  }
}

=== FILE: whole_file.dfy ===
/** The whole-file case of the streaming writer.

    When the whole file fits in one chunk, `Write` waits until the buffer
    holds `fileSize` bytes and then applies only the bytes of the last call,
    not the buffer, and leaves the buffer as it is. A file that arrives in
    two or more calls is refused, and a file that arrives in one call is
    applied but stays buffered, so a later `Flush` submits it again and is
    refused as a duplicate. `WriteFixed` applies the buffer instead. */
module WholeFileWrite {
  import opened Store
  import opened Chunker
  import opened Consistency
  import opened Output
  import opened Streaming

  /** A digest function for the two-byte file [1, 2]. */
  function SampleDigest(b: Bytes): Digest
  {
    if b == [1, 2] then "d" else "x"
  }

  /** A two-byte file in four-byte chunks, written as [1] then [2]: the
      first call buffers, the second applies [2] alone, whose digest is not
      in the table, and fails. */
  lemma WriteSplitWholeFileRefused()
    ensures NewChunker(["d"], 4, 2).Ok?
    ensures var c := NewChunker(["d"], 4, 2).value;
      var w1 := Write(c, SampleDigest, [1]);
      && w1.err.None? && w1.state.buf == [1]
      && Write(w1.state, SampleDigest, [2]).err == Some(UnknownChunk(1, 4))
  {
    var c := NewChunker(["d"], 4, 2).value;
    PartialWriteBuffers(c, SampleDigest, [1]);
    var w1 := Write(c, SampleDigest, [1]);
    assert w1.state.buf + [2] == [1, 2];
    assert SampleDigest([2]) == "x";
  }

  /** Bytes that neither complete the file nor fill more than a chunk are
      only buffered, whichever writer takes them. */
  lemma PartialWriteBuffers(c: Chunker, h: Bytes -> Digest, p: Bytes)
    requires WellFormed(c) && c.buf == [] && c.bytesLeft == c.fileSize
    requires |p| < c.fileSize <= c.chunkSize
    ensures Write(c, h, p) == Outcome(c.(buf := p), |p|, None)
    ensures WriteFixed(c, h, p) == Outcome(c.(buf := p), |p|, None)
  {
    var c0 := c.(buf := c.buf + p);
    assert c0.buf == p && c0.buf[0..] == p;
    assert WriteLoop(c0, h, p) == Progress(c0, 0, None);
  }

  /** The same two calls through `WriteFixed`: the file is applied, emitted
      and signalled complete. */
  lemma WriteFixedSplitWholeFileAccepted()
    ensures NewChunker(["d"], 4, 2).Ok?
    ensures var c := NewChunker(["d"], 4, 2).value;
      var w1 := WriteFixed(c, SampleDigest, [1]);
      var w2 := WriteFixed(w1.state, SampleDigest, [2]);
      && w1.err.None? && w2.err.None?
      && w2.state.out == [[1, 2]] && w2.state.doneSent == 1 && w2.state.buf == []
  {
    var c := NewChunker(["d"], 4, 2).value;
    PartialWriteBuffers(c, SampleDigest, [1]);
    var c1 := c.(buf := [1]);
    var c0 := c1.(buf := [1, 2]);
    assert c1.buf + [2] == c0.buf;
    assert SampleDigest([1, 2]) == "d" && c0.chunks[0].hash == "d";
    assert FindChunk(c0, "d") == Found(0);
    assert WriteFixed(c1, SampleDigest, [2]) == Commit(c0, SampleDigest, 1);
  }

  /** As written: whenever a file no longer than a chunk is completed by a
      call that does not carry all of it, the call is refused, since no
      digest in an authentic table matches a proper part of the file. */
  lemma WholeFileSplitRefused(c: Chunker, h: Bytes -> Digest, p: Bytes, content: Bytes)
    requires Consistent(c) && Faithful(c, content)
    requires Authentic(h, Hashes(c.chunks), content, c.chunkSize)
    requires WholeFileBuffered(c, p) && c.buf + p == content
    requires |c.buf| > 0 && |p| > 0
    ensures Write(c, h, p).err == Some(UnknownChunk(|p|, c.chunkSize))
  {
    var c0 := c.(buf := c.buf + p);
    var f := FindChunk(c0, h(p));
    if f.Found? {
      var i := f.index;
      assert Hashes(c.chunks)[i] == h(p);
      assert p == Piece(content, i, c.chunkSize);
      if i > 0 {
        MulMono(1, i, c.chunkSize);
      }
      assert false;
    }
  }

  /** As written: a file no longer than a chunk written in one call is
      applied and emitted, but stays buffered, so the `Flush` that follows
      submits it again and is refused. */
  lemma WholeFileFlushRefused(c: Chunker, h: Bytes -> Digest, content: Bytes)
    requires Consistent(c) && c.buf == [] && c.chunksDone == 0
    requires |c.chunks| > 0 && c.chunks[0].hash == h(content)
    requires WholeFileBuffered(c, content) && |content| > 0
    ensures var w := Write(c, h, content);
      && w.err.None? && w.state.buf == content
      && Flush(w.state, h).err == Some(UnknownChunk(|content|, c.chunkSize))
  {
    CountBound(c.chunks);
    var c0 := c.(buf := c.buf + content);
    assert FindChunk(c0, h(content)) == Found(0);
    var w := Write(c, h, content);
    assert w.state == Apply(c0, h, content).state;
    ApplyAccepted(c0, h, content);
    assert FindChunk(w.state, h(content)) == AlreadyApplied(0);
  }

  /** Corrected: a file no longer than a chunk whose digest leads the table
      is accepted whatever calls it arrives in. The call that completes it
      succeeds, clears the buffer, owes no more bytes and has sent exactly
      the file to the sink. */
  lemma WholeFileWriteFixedDelivers(c: Chunker, h: Bytes -> Digest, p: Bytes, content: Bytes)
    requires Consistent(c) && Faithful(c, content) && c.chunksDone == 0
    requires Authentic(h, Hashes(c.chunks), content, c.chunkSize)
    requires |c.chunks| > 0 && c.chunks[0].hash == h(content)
    requires WholeFileBuffered(c, p) && c.buf + p == content && |content| > 0
    ensures var w := WriteFixed(c, h, p);
      && w.err.None? && w.state.buf == [] && w.state.bytesLeft == 0
      && Flatten(w.state.out) == content
  {
    CountBound(c.chunks);
    AppliedBytesNone(c.chunks, c.chunkSize, c.fileSize);
    var c0 := c.(buf := c.buf + p);
    assert FindChunk(c0, h(content)) == Found(0);
    WriteFixedKeeps(c, h, p, content);
    ApplyCursor(c0, h, content);
    var w := WriteFixed(c, h, p);
    assert w.state.nextWritePiece >= 1;
    MulMono(1, w.state.nextWritePiece, c.chunkSize);
    OutputIsContentPrefix(w.state, content);
  }
}
